=== FILE: README.md ===
# YARRRML mapper and ontology exporter, modelled in Dafny

The system turns open-data records (JSON objects with a `fields` section) into RDF. It works from
a YARRRML mapping document in two phases.

1. **Compilation** (`parse_to_rdf_mapping`) reads the document's `prefixes` and `mappings`
   sections. It produces a *rule set*: template triples whose subjects and objects may still
   contain `$(field)` placeholders.
   - Every mapping entry with a `subject` gets its subject template expanded against the prefix
     table.
   - Every rule group under `predicateobjects`/`po` is normalised by `uniformize_predicate_object`
     into a list of predicates and a list of object specs.
   - Each object spec becomes an IRI, a reference to another entry's subject, or a literal with an
     optional language or datatype.
2. **Transformation** (`yarrrml_mapper`) applies the rule set to every record.
   - It builds a table from `$(name)` to the record's field value.
   - It substitutes placeholders (`replace_references`).
   - It keeps a triple only when its subject resolves to a non-empty IRI and its object to a true
     term.

The ontology exporter compiles a mapping, collects its classes (objects of `rdf:type`) and
properties (all predicates), and gathers, for each concept, the triples about it from the
vocabulary published at the concept's IRI.

The Dafny modules follow the program:

| module | what it holds |
|---|---|
| `Wrappers` | `Option` and `Result` |
| `Text` | substring search, Python's replace-all `str.replace`, `split(":", 1)[0]` |
| `References` | the non-greedy `$(...)` placeholder scan |
| `Yaml` | the parsed document as a tagged tree, and Python's container operations on it, each failing with the exception Python raises |
| `Rdf` | terms, triples and the hard-coded namespaces |
| `Host` | the library functions the mapper calls but whose definitions are not modelled (the URL regular expression, rdflib's IRI check, percent-encoding and decoding, `str()` of containers, literal truthiness), as fields of an `Env` value |
| `Compiler` | the first phase |
| `Transformer` | the second phase |
| `Ontology` | the exporter |
| `Scenarios` | a single-entry mapping document traced through both phases |

Every property holds for every choice of the `Env` functions and of the vocabulary fetcher.

## Where the code departs from YARRRML

The mapper's header points to the YARRRML specification (`http://rml.io/yarrrml/spec/`). The
model follows the code, which departs from that language in these places.

- A prefixed name keeps its colon. `parse_uri_template` replaces the text before the first colon
  with the namespace and leaves the colon in place, so `ex:Thing` with `ex = http://ex.org/`
  becomes `http://ex.org/:Thing`, not `http://ex.org/Thing` (`Compiler.PrefixExpansionKeepsColon`).
  The replacement is Python's replace-all, so a prefix name that occurs again later in the
  template is expanded there too (`Compiler.RepeatedPrefixExpandsEverywhere`).
- The built-in prefix names are stored with a trailing colon (`rdf:`). The text before a colon
  never contains one, so `rdf:type` and similar names are never expanded
  (`Compiler.BuiltinPrefixesNeverExpand`).
- The URL test on an object runs on the raw template, before expansion. A prefixed object such as
  `ex:Thing` therefore becomes a literal, not an IRI.
- A single-entry document with prefix `ex` and the subject template `ex:$(id)` thus compiles to subject `http://ex.org/:$(id)` with the literal object
  `"ex:Thing"`. For the record `{fields: {id: 7}}` it yields the subject `http://ex.org/:`
  followed by the percent-encoding of `7` (`Scenarios.ExampleCompilesWithColonKept`,
  `Scenarios.ExampleRecordTriple`).
- A rule group that normalises to an empty list (a dict-form group without predicates or objects,
  a one-element list) is not dropped: the caller indexes it and compilation fails with
  `IndexError` (`Compiler.EmptyRuleAbortsCompilation`).
- Predicates are copied from the rule set unchanged; they are neither substituted nor validated
  per record.
- A record without a `fields` mapping aborts the whole transformation (`KeyError`, `TypeError` or
  `AttributeError`), and no partial graph is returned (`Transformer.YarrrmlMapper`).
- A file-valued field (a mapping) is spliced into the whole template text, and that text is then
  percent-encoded and put in place of the placeholder, unless the placeholder is the entire term
  (`Transformer.FileValueSplicesWholeTemplate`).
- When only some placeholders of a term are bound, the unbound ones stay in the output text
  (`Transformer.PartialSubstitutionKeepsLeftover`).

## Model

| member | source | states |
|---|---|---|
| Text.BeforeColon | YARRRMLMapper.py:220 | the prefix name is a prefix of the template that contains no colon and stops exactly at the first colon, if there is one |
| Text.ReplaceAll | YARRRMLMapper.py:120-122 | Python's `str.replace`: an empty pattern puts the replacement before every character and at the end; a replacement no longer than the pattern never lengthens the text, and one no shorter never shortens it; replacing a pattern by itself changes nothing. Its behaviour on occurrences is stated by `ReplaceAbsent`, `ReplaceSkipsPrefix`, `ReplaceWhole` and `ReplaceTwoOccurrences` |
| Text.ReplaceAbsent | YARRRMLMapper.py:222 | replacing a pattern that does not occur leaves the text unchanged |
| Text.ReplaceSkipsPrefix | YARRRMLMapper.py:120-122 | replacement does not touch a leading part that lacks the pattern's first character |
| Text.ReplaceWhole | YARRRMLMapper.py:120-122 | a text that starts with the pattern gets the replacement there, followed by the replaced rest |
| Text.ReplaceTwoOccurrences | YARRRMLMapper.py:222 | both occurrences of a pattern, separated by text without its first character, are replaced |
| References.CloseParen | YARRRMLMapper.py:19 | the non-greedy match closes at the first `)`: it returns a `)` with no earlier `)` after the opening, and every such position is the one it returns |
| References.FindReferences | YARRRMLMapper.py:19 | every reference found is a `$(...)` placeholder occurring in the term's text |
| References.ConstantIffNoPlaceholder | YARRRMLMapper.py:104-107 | the scan finds nothing exactly when the text contains no `$(...)` substring, in both directions |
| References.FindSkipsPrefix | YARRRMLMapper.py:104 | text without `$` before a term changes nothing the scan finds |
| References.FindLeadingPlaceholder | YARRRMLMapper.py:104 | a term that starts with a placeholder yields that placeholder first, then the references of the rest |
| References.FindOnePlaceholder | YARRRMLMapper.py:104 | a template with one placeholder and no other `$` yields exactly that placeholder |
| References.RefInjective | YARRRMLMapper.py:88 | distinct field names give distinct placeholders |
| Yaml.Lookup | YARRRMLMapper.py:292-293 | a key is absent exactly when no entry carries it; a found value belongs to an entry with that key |
| Yaml.In | YARRRMLMapper.py:150-160 | on a mapping, `in` tests key presence; on a scalar it raises `TypeError` |
| Yaml.Index | YARRRMLMapper.py:84 | subscripting succeeds exactly on a mapping that has the key, and yields that key's value |
| Yaml.GetKeys | YARRRMLMapper.py:289-294 | the value of the first alias present in the mapping, or the empty mapping when no alias is present |
| Yaml.Items | YARRRMLMapper.py:87 | `.items()` succeeds exactly on mappings and yields their entries in order |
| Yaml.Iterate | YARRRMLMapper.py:171 | iterating a list yields its items, a mapping its keys, a string its characters; a scalar raises |
| Yaml.ObjectElements | YARRRMLMapper.py:186-187 | `len(obj) > 0` and `obj[0]` as the elements of an object spec: a list gives its items and a string its characters; the spec is empty exactly when it is a false container; a non-empty mapping raises `KeyError` at `obj[0]`, and a scalar raises `TypeError` at `len` |
| Yaml.DigitsRoundTrip | YARRRMLMapper.py:112-113 | the decimal text of a number reads back as that number |
| Yaml.DecimalNoLeadingZero | YARRRMLMapper.py:112-113 | the decimal text of an integer has no leading zeros: only zero itself starts with `0`, and behind a minus sign the first digit is never `0` |
| Yaml.ToText | YARRRMLMapper.py:112-113 | `str()` keeps a string and writes an integer in decimal without leading zeros, with a leading minus sign when negative |
| Compiler.AddAbsent | YARRRMLMapper.py:151-153 | the table gains exactly the declared names, existing entries keep their namespace, and a new entry holds its declared value |
| Compiler.ParsePrefixes | YARRRMLMapper.py:148-154 | the built-in prefixes are kept; the table is the built-ins plus the declared names; without a `prefixes` section it is the built-ins; a non-mapping section raises `AttributeError` |
| Compiler.ParseUriTemplate | YARRRMLMapper.py:217-223 | `a` is `rdf:type`; a non-string raises `AttributeError`; the result is always an IRI; an unknown prefix leaves the template as it is; a declared prefix name is replaced by its namespace at every occurrence, and a non-string namespace makes the call fail |
| Compiler.PrefixExpansionKeepsColon | YARRRMLMapper.py:220-222 | `token:local` with a declared `token` expands to the namespace, a colon and then `local` |
| Compiler.RepeatedPrefixExpandsEverywhere | YARRRMLMapper.py:220-222 | a declared prefix name that occurs twice in a template is replaced by the namespace at both places |
| Compiler.BuiltinPrefixesNeverExpand | YARRRMLMapper.py:218-223 | against the built-in table, every template other than `a` is taken literally |
| Compiler.FlattenOne | YARRRMLMapper.py:271-282 | a dict-form object contributes its value, then `<language>~lang` when its `language` is true, then its `datatype` when true, and nothing else; any other object contributes itself |
| Compiler.FlattenObjects | YARRRMLMapper.py:269-283 | flattening keeps plain objects as they are and adds at most two tags per dict-form object; a single item flattens to exactly what that item contributes |
| Compiler.FlattenObjectsAppend | YARRRMLMapper.py:269-283 | flattening a concatenation gives the concatenation of the flattenings: each item contributes its elements in place |
| Compiler.Uniformize | YARRRMLMapper.py:226-286 | list form: a short list gives nothing; otherwise the predicates come first, an empty object list leaves the objects out, objects written inline become one object spec, a list of lists is taken as the object specs and a flat list as one spec; dict form: nothing unless both predicates and objects are true, else the predicates and one spec holding the flattened objects (or the objects value itself when it is not a list) |
| Compiler.ShortcutFormsAgree | YARRRMLMapper.py:241-258 | `[p, o1, o2, ...]` and `[p, [o1, o2, ...]]` normalise to the same rule when `o1` is not a list |
| Compiler.DictFormMatchesListForm | YARRRMLMapper.py:226-286 | `{p: P, o: [{value: v, language: l}]}` normalises to the same rule as `[P, v, "l~lang"]` |
| Compiler.DictDatatypeMatchesListForm | YARRRMLMapper.py:226-286 | `{p: P, o: [{value: v, datatype: d}]}` normalises to the same rule as `[P, v, d]` |
| Compiler.LiteralTags | YARRRMLMapper.py:198-208 | the loop succeeds exactly when every tag element is a string that holds the `~lang` marker or expands as a template; the language is that of the last marker element with the marker removed, the datatype the expansion of the last element whose expansion matches the URL pattern, and each stays as it was when no such element exists |
| Compiler.NextTags | YARRRMLMapper.py:199-208 | one turn of the tag loop: an element holding `~lang` sets the language to its text without the marker and keeps the datatype; an element whose expansion matches the URL pattern sets the datatype to that expansion and keeps the language; any other element changes nothing |
| Compiler.TaggedLiteral | YARRRMLMapper.py:209-212 | the literal carries the value text; a non-empty language is kept and the datatype dropped; otherwise there is no language and the datatype is kept |
| Compiler.ParseObject | YARRRMLMapper.py:185-214 | succeeds exactly when `len` and indexing work on the spec and, if it is non-empty, its first element is a string whose expansion succeeds when it is URL-like and whose tag elements all get through the tag loop when it is neither URL-like nor an entry name; an empty spec adds nothing, a non-empty one exactly one triple with the given subject and predicate; the object is the expansion of a URL-like value, else the named entry's subject, else a literal of the value carrying the tags the tag loop chose |
| Compiler.LanguageWinsOverDatatype | YARRRMLMapper.py:209-212 | a literal with both a language marker and a datatype gets only the language |
| Compiler.ObjectsTriples | YARRRMLMapper.py:175-181 | succeeds exactly when every object spec compiles; the triples of one predicate are exactly the union of what its object specs add |
| Compiler.PredicateTriples | YARRRMLMapper.py:173-181 | one predicate succeeds exactly when it expands, the rule has an object list and every object spec compiles; a missing object list raises `IndexError`; a triple is produced exactly when one of the object specs adds it for the expanded predicate |
| Compiler.PredicatesTriples | YARRRMLMapper.py:173-181 | succeeds exactly when every predicate compiles with all object specs; a triple is produced exactly when some predicate compiles and one of the rule's object specs adds it for that predicate; no predicates give nothing; a rule without an object list raises `IndexError` once a predicate compiles |
| Compiler.RuleTriples | YARRRMLMapper.py:172-181 | an empty rule raises `IndexError`; otherwise it succeeds exactly when every predicate of the rule compiles, and a triple is produced exactly when some predicate of the rule and some object spec add it |
| Compiler.GroupTriples | YARRRMLMapper.py:172-181 | succeeds exactly when the group normalises and its rule compiles; the group's triples are exactly those its normalised rule adds |
| Compiler.GroupsTriples | YARRRMLMapper.py:171-181 | succeeds exactly when every rule group normalises and compiles; a triple is produced exactly when some rule group's rule adds it |
| Compiler.EntryTriples | YARRRMLMapper.py:170-181 | succeeds exactly when the entry's rule-group section is found and iterated and every rule group in it compiles; a triple is produced exactly when one of those rule groups adds it |
| Compiler.EntryContribution | YARRRMLMapper.py:168-181 | an entry without a registered subject contributes nothing and cannot fail; one with a subject succeeds exactly when it compiles, and contributes exactly the triples it adds against that subject |
| Compiler.EntriesTriples | YARRRMLMapper.py:168-181 | succeeds exactly when every entry with a registered subject compiles; a triple is produced exactly when some such entry adds it against that subject |
| Compiler.SubjectsOf | YARRRMLMapper.py:159-162 | succeeds exactly when `in` succeeds on every entry and the `subject` template of each first declaring entry of a not yet registered name can be read and expanded; every name it registers holds the compiled template of the first entry of that name that declares one; names already registered keep their subjects; every subject is an IRI |
| Compiler.MappingEntries | YARRRMLMapper.py:159 | the entries of the `mappings` or `mapping` section |
| Compiler.ParseSubjects | YARRRMLMapper.py:157-163 | succeeds exactly when the `mappings` section is found and every entry passes `SubjectsOf`'s condition; a name has a subject exactly when some entry of that name declares `subject`, and the subject is the compiled template of the first such entry; every subject is an IRI |
| Compiler.ParsePredicateObjects | YARRRMLMapper.py:166-182 | a missing or malformed `mappings` section fails with its error; otherwise it succeeds exactly when every entry with a subject compiles; a triple is produced exactly when some entry with a subject adds it; its subject is an entry's subject, its predicate an IRI, and a literal object that is not an entry's subject has exclusive, non-empty tags |
| Compiler.ParseToRdfMapping | YARRRMLMapper.py:141-145 | errors of the prefix and subject phases abort with that error; it succeeds exactly when the prefix, subject and rule phases all succeed; a triple is compiled exactly when some mapping entry adds it under the compiled prefixes and subjects; every compiled triple has an IRI subject and predicate, and no literal object carries both a language and a datatype |
| Compiler.CompiledSubjectIsFirstDeclared | YARRRMLMapper.py:157-182 | the subject of every compiled triple is the compiled `subject` template of the first entry that declares some name |
| Compiler.EmptyRuleAbortsCompilation | YARRRMLMapper.py:172-173 | a rule group that normalises to nothing, under an entry with a subject, makes the whole compilation fail |
| Transformer.Substitute | YARRRMLMapper.py:108-123 | something was replaced exactly when some placeholder found is bound to a true value; when none is bound the text is unchanged |
| Transformer.SubstituteOne | YARRRMLMapper.py:108-123 | one placeholder's turn: no result exactly when the placeholder is unbound; a term that is the placeholder alone takes the value text unencoded (a file value becomes the default files IRI plus its filename); otherwise a scalar value is percent-encoded at every occurrence, and a file value is spliced into the whole template, which is then percent-encoded at every occurrence; a placeholder that does not occur leaves the text unchanged |
| Transformer.ReplaceReferences | YARRRMLMapper.py:101-138 | a term without placeholders is returned as it is; a term whose placeholders are all unbound is dropped; the kind of term is kept; a changed IRI passes both IRI checks; a literal keeps its language and datatype |
| Transformer.SubstituteOnlySeesBound | YARRRMLMapper.py:109-110 | substitution depends only on which placeholders are bound to true values, and to what |
| Transformer.FalsyValueIsMissing | YARRRMLMapper.py:109-110 | a field holding a false value (`None`, `0`, `""`, empty container) behaves exactly like a missing field |
| Transformer.SinglePlaceholderTakesRawValue | YARRRMLMapper.py:112-137 | a term that is one placeholder takes the value unencoded (a file value becomes the default files IRI plus its filename); an IRI result is kept only if valid; a literal result is percent-decoded |
| Transformer.ReplaceInContext | YARRRMLMapper.py:120-122 | replacing a placeholder inside `$`-free text changes only the placeholder |
| Transformer.OnePlaceholderInContext | YARRRMLMapper.py:118-134 | an embedded placeholder is replaced by the percent-encoding of the value text, and the IRI is kept only if valid |
| Transformer.EmbeddedPlaceholderIsQuoted | YARRRMLMapper.py:112-134 | a scalar value embedded in an IRI template is percent-encoded in place, and the result is kept only if valid |
| Transformer.FileValueSplicesWholeTemplate | YARRRMLMapper.py:114-122 | a file value embedded in a template splices the default files IRI into the whole template, and that whole text is encoded in place of the placeholder |
| Transformer.PlaceholderAtStartIsUnique | YARRRMLMapper.py:19 | two placeholders cannot start at the same position unless they are equal |
| Transformer.FindTwoPlaceholders | YARRRMLMapper.py:104 | a template with two placeholders and no other `$` yields both, in order |
| Transformer.ReplaceSkipsOtherPlaceholder | YARRRMLMapper.py:120-122 | replacing one placeholder leaves a different one untouched |
| Transformer.ReplaceFirstOfTwo | YARRRMLMapper.py:120-122 | replacing the first of two placeholders leaves the second in the text |
| Transformer.PartialSubstitutionKeepsLeftover | YARRRMLMapper.py:108-134 | with only the first of two placeholders bound, the output still contains the second placeholder, and the IRI is kept if it passes both checks |
| Transformer.FieldRefsAreFieldNames | YARRRMLMapper.py:87-88 | a placeholder is in the table exactly when it is `$(name)` for some field name |
| Transformer.ReferenceMapOf | YARRRMLMapper.py:86-88 | the table's keys are the fields' placeholders, and each maps to the field's last value |
| Transformer.RecordReferences | YARRRMLMapper.py:84-88 | a record yields a table exactly when it is a mapping with a `fields` mapping, and the table is built from those fields |
| Transformer.ResolveTriple | YARRRMLMapper.py:90-95 | a rule yields a triple exactly when its subject resolves to a non-empty IRI and its object to a true term; the predicate is copied and the resolved terms are used |
| Transformer.EmittedStep | YARRRMLMapper.py:95 | adding one record's triples to the accumulated graph extends it by exactly what that record's references emit |
| Transformer.RecordGraph | YARRRMLMapper.py:90-95 | one record's graph holds exactly the triples some rule yields for it |
| Transformer.AllRecordReferences | YARRRMLMapper.py:81-88 | failure exactly when some record has no usable `fields`, with the first such record's error; otherwise one table per record |
| Transformer.GraphOf | YARRRMLMapper.py:80-95 | the graph holds exactly the triples some record's rules yield |
| Transformer.YarrrmlMapper | YARRRMLMapper.py:79-98 | the run fails exactly when some record lacks usable `fields`, reporting the first; otherwise a triple is in the result exactly when some record's rule yields it |
| Transformer.EmittedTriplesAreWellFormed | YARRRMLMapper.py:90-95 | every produced triple has a non-empty IRI subject; its predicate comes from a rule whose subject it copies or replaces by a valid IRI |
| Ontology.GetClassesProperties | Ontology.py:43-50 | the classes are exactly the objects of `rdf:type` triples, the properties exactly the predicates in use; any class implies `rdf:type` is a property |
| Ontology.Source | Ontology.py:34-37 | a concept containing `schema.org` is read as Turtle from `<concept>.ttl`; any other concept as RDF/XML from its own IRI |
| Ontology.SchemaOrgIsReadAsTurtle | Ontology.py:34-35 | every `http://schema.org/` concept is read from its `.ttl` file |
| Ontology.GetRdfGraph | Ontology.py:31-40 | a failed retrieval gives the empty graph; otherwise the graph retrieved |
| Ontology.GetOntology | Ontology.py:21-28 | a triple is exported exactly when its subject is a class or property and it belongs to the graph retrieved for that subject |
| Ontology.ExportOntology | Ontology.py:14-16 | the export fails exactly when compilation fails; a triple is exported exactly when it belongs to its subject's vocabulary and its subject is a compiled predicate or class; a literal subject can only be a class |
| Scenarios.ExampleCompilesWithColonKept | YARRRMLMapper.py:217-223 | the single-entry document compiles to one rule: subject `http://ex.org/:$(id)`, `rdf:type`, literal `ex:Thing` |
| Scenarios.ExampleRecordTriple | YARRRMLMapper.py:90-95 | for the record with `id: 7` the rule yields subject `http://ex.org/:` plus the encoding of `7`, with the literal object unchanged |

## Left out

- Reading the mapping and the records, the command line, serialising the graph to a file, and the
  debug messages (`main`, `YARRRMLMapper.py:45-76`; `Ontology.py:7-13`, `Ontology.py:17-18`,
  `Ontology.py:53-58`) are I/O. With debugging on, a record without `recordid` raises
  `KeyError`; the debug flag is not modelled.
- `SPARQL.py` is not part of this model.
- The URL regular expression, rdflib's `_is_valid_uri`, `quote`, `unquote`, `str()` of lists and
  mappings, and the truthiness of an rdflib literal (which depends on its parsed value) are
  uninterpreted functions in `Host.Env`. The properties hold for every interpretation of them,
  and nothing is assumed about them.
- Floating-point field values are left out: `Yaml.Node` has integers only, because Python's
  float formatting is not modelled. Booleans are written as `True`/`False`.
- rdflib's validation and normalisation of language tags, and its lexical normalisation of typed
  literals, are not modelled; a literal carries the text and tags as given.
- The prefix table is a module-level dictionary that `parse_prefixes` mutates, so prefixes
  declared in one compilation stay visible in later ones in the same process. Each compilation
  is modelled as starting from the built-ins.
- Mapping keys are strings and the first entry with a key is the one looked up. A document that
  repeats a key (where a YAML loader keeps the last) and non-string keys are not modelled.
  Record fields are the exception: there the last occurrence wins, as the Python dictionary
  assignment does.
- Graphs are sets; the order in which rdflib stores or serialises triples is not modelled.
- Ontology.GetRdfGraph: a retrieval that fails part-way is modelled as the empty graph; rdflib may
  keep the triples parsed before the error.
- Transformer.ReplaceReferences: the contract classifies the outcome (kept, dropped, kind and
  tags preserved, valid IRI); the exact output text is stated only by the lemmas for templates
  with one or two placeholders.

=== FILE: compiler.dfy ===
/** Compilation of a parsed YARRRML document into the rule set: a set of template triples
    whose subjects and objects may still contain `$(field)` placeholders. */
module Compiler {
  import opened Wrappers
  import opened Text
  import opened Yaml
  import opened Rdf
  import opened Host

  /** Prefix name to namespace, as declared (values are whatever the document holds). */
  type PrefixTable = map<string, Node>

  /** Mapping-entry name to the subject term compiled from its `subject` template. */
  type Resources = map<string, Term>

  const MAPPING_KEYS: seq<string> := ["mappings", "mapping"]
  const PREDICATE_OBJECT_KEYS: seq<string> := ["predicateobjects", "predicateobject", "po"]
  const PREDICATE_KEYS: seq<string> := ["predicates", "predicate", "p"]
  const OBJECT_KEYS: seq<string> := ["objects", "object", "o"]
  const VALUE_KEYS: seq<string> := ["value", "v"]

  /** The well-known prefixes every compilation starts from; their names end in a colon. */
  const BUILTIN_PREFIXES: PrefixTable :=
    map["rdfs:" := Str(RDFS_NS), "rdf:" := Str(RDF_NS), "owl:" := Str(OWL_NS), "xsd:" := Str(XSD_NS)]

  /** The language marker a dict-form object's `language` is turned into. */
  const LANG_MARKER := "~lang"

  // ---------------------------------------------------------------- prefixes

  function DeclaredNames(declared: seq<(string, Node)>): set<string> {
    set i | 0 <= i < |declared| :: declared[i].0
  }

  /** Registers each declared prefix whose name is not yet in `table`; nothing is overwritten. */
  function AddAbsent(table: PrefixTable, declared: seq<(string, Node)>): (r: PrefixTable)
    decreases |declared|
    ensures r.Keys == table.Keys + DeclaredNames(declared)
    ensures forall k | k in table :: r[k] == table[k]
    ensures forall k | k in r && k !in table :: Lookup(declared, k) == Some(r[k])
  {
    if |declared| == 0 then table
    else
      var name := declared[0].0;
      var next := if name in table then table else table[name := declared[0].1];
      assert DeclaredNames(declared) == {name} + DeclaredNames(declared[1..]) by {
        forall k | k in DeclaredNames(declared)
          ensures k in {name} + DeclaredNames(declared[1..])
        {
          var i :| 0 <= i < |declared| && declared[i].0 == k;
          if i > 0 { assert declared[1..][i - 1].0 == k; }
        }
        forall k | k in DeclaredNames(declared[1..])
          ensures k in DeclaredNames(declared)
        {
          var i :| 0 <= i < |declared[1..]| && declared[1..][i].0 == k;
          assert declared[i + 1].0 == k;
        }
      }
      AddAbsent(next, declared[1..])
  }

  /** `parse_prefixes`: the built-in table extended with the document's `prefixes` entries
      whose names are not already present. */
  function ParsePrefixes(doc: Node): (r: Result<PrefixTable, PyError>)
    ensures r.Success? ==>
              forall k | k in BUILTIN_PREFIXES :: k in r.value && r.value[k] == BUILTIN_PREFIXES[k]
    ensures doc.Dict? && Lookup(doc.entries, "prefixes").None? ==> r == Success(BUILTIN_PREFIXES)
    ensures doc.Dict? && Lookup(doc.entries, "prefixes").Some? && Lookup(doc.entries, "prefixes").value.Dict? ==>
              var declared := Lookup(doc.entries, "prefixes").value.entries;
              && r.Success?
              && r.value.Keys == BUILTIN_PREFIXES.Keys + DeclaredNames(declared)
              && forall k | k in r.value && k !in BUILTIN_PREFIXES :: Lookup(declared, k) == Some(r.value[k])
    ensures doc.Dict? && Lookup(doc.entries, "prefixes").Some? && !Lookup(doc.entries, "prefixes").value.Dict? ==>
              r == Failure(AttributeError)
  {
    var declares :- In("prefixes", doc);
    if !declares then Success(BUILTIN_PREFIXES)
    else
      var section :- Index(doc, "prefixes");
      var declared :- Items(section);
      Success(AddAbsent(BUILTIN_PREFIXES, declared))
  }

  // ---------------------------------------------------------------- IRI templates

  /** `parse_uri_template`: `a` is `rdf:type`; otherwise, when the text before the first colon
      names a prefix, every occurrence of that text is replaced by the namespace (the colon
      stays). The result is always an IRI term. */
  function ParseUriTemplate(template: Node, prefixes: PrefixTable): (r: Result<Term, PyError>)
    ensures template == Str("a") ==> r == Success(RDF_TYPE)
    ensures !template.Str? ==> r == Failure(AttributeError)
    ensures r.Success? ==> r.value.IRI?
    ensures template.Str? && template != Str("a") && BeforeColon(template.s) !in prefixes ==>
              r == Success(IRI(template.s))
    ensures template.Str? && template != Str("a") && BeforeColon(template.s) in prefixes ==>
              var declared := prefixes[BeforeColon(template.s)];
              && (r.Success? <==> declared.Str?)
              && (r.Success? ==> r.value == IRI(ReplaceAll(template.s, BeforeColon(template.s), declared.s)))
  {
    if template == Str("a") then Success(RDF_TYPE)
    else if !template.Str? then Failure(AttributeError)
    else
      var token := BeforeColon(template.s);
      if token !in prefixes then Success(IRI(template.s))
      else
        match prefixes[token]
        case Str(ns) => Success(IRI(ReplaceAll(template.s, token, ns)))
        case _ => Failure(TypeError)
  }

  /** The text before the first colon of `token + ":" + local` is `token`. */
  lemma BeforeColonOfPrefixedName(token: string, local: string)
    requires Lacks(token, ':')
    ensures BeforeColon(token + ":" + local) == token
  {
    var s := token + ":" + local;
    var r := BeforeColon(s);
    assert s[|token|] == ':';
    if |r| > |token| {
      assert false;
    } else if |r| < |token| {
      assert false;
    }
    assert r == s[..|token|] == token;
  }

  /** A prefixed name `token:local` whose prefix is declared as `ns` expands to `ns:local`:
      the namespace replaces the prefix text but the colon is kept. */
  lemma {:induction false} PrefixExpansionKeepsColon(token: string, local: string, ns: string, prefixes: PrefixTable)
    requires |token| > 0 && Lacks(token, ':') && !IsInfix(token, local)
    requires token in prefixes && prefixes[token] == Str(ns)
    ensures ParseUriTemplate(Str(token + ":" + local), prefixes) == Success(IRI(ns + ":" + local))
  {
    var s := token + ":" + local;
    BeforeColonOfPrefixedName(token, local);
    assert s == token + (":" + local);
    ReplaceWhole(token, ns, ":" + local);
    TokenAbsentAfterColon(token, local);
    ReplaceAbsent(":" + local, token, ns);
    assert ns + (":" + local) == ns + ":" + local;
  }

  /** Every occurrence of the prefix name is replaced, not only the leading one: with `ex`
      declared as `ns`, `ex:a/ex/b` expands to `ns:a/ns/b`. */
  lemma RepeatedPrefixExpandsEverywhere(token: string, a: string, b: string, ns: string, prefixes: PrefixTable)
    requires |token| > 0 && Lacks(token, ':') && Lacks(a, token[0]) && Lacks(b, token[0])
    requires token in prefixes && prefixes[token] == Str(ns)
    ensures ParseUriTemplate(Str(token + ":" + a + token + b), prefixes) == Success(IRI(ns + ":" + a + ns + b))
  {
    var local := a + token + b;
    assert token + ":" + local == token + ":" + a + token + b;
    BeforeColonOfPrefixedName(token, local);
    ReplaceRepeatedToken(token, a, b, ns);
  }

  /** Replacing `token` in `token:a<token>b` hits both occurrences. */
  lemma ReplaceRepeatedToken(token: string, a: string, b: string, ns: string)
    requires |token| > 0 && Lacks(token, ':') && Lacks(a, token[0]) && Lacks(b, token[0])
    ensures ReplaceAll(token + ":" + a + token + b, token, ns) == ns + ":" + a + ns + b
  {
    var head := ":" + a;
    ColonKeepsLacking(a, token[0]);
    ReplaceTwoOccurrences(token, head, b, ns);
    ReplaceWithoutFirstChar(b, token, ns);
    var replaced := ReplaceAll(token + (head + (token + b)), token, ns);
    assert replaced == ns + (head + (ns + b));
    PrefixedTwiceShape(token, a, b);
    PrefixedTwiceShape(ns, a, b);
  }

  /** Putting a colon in front of a string keeps it free of any other character. */
  lemma ColonKeepsLacking(a: string, c: char)
    requires c != ':' && Lacks(a, c)
    ensures Lacks(":" + a, c)
  {
    assert forall k | 1 <= k < |":" + a| :: (":" + a)[k] == a[k - 1];
  }

  /** `t:a<t>b` regrouped around its two occurrences of `t`. */
  lemma PrefixedTwiceShape(t: string, a: string, b: string)
    ensures t + ":" + a + t + b == t + ((":" + a) + (t + b))
  {
    assert t + ":" + a == t + (":" + a);
  }

  /** A colon-free prefix name that does not occur in `local` does not occur in `":" + local`
      either. */
  lemma TokenAbsentAfterColon(token: string, local: string)
    requires |token| > 0 && Lacks(token, ':') && !IsInfix(token, local)
    ensures !IsInfix(token, ":" + local)
  {
    var t := ":" + local;
    forall i | 0 <= i <= |t| - |token|
      ensures !OccursAt(token, t, i)
    {
      if i == 0 {
        assert t[0..|token|][0] == ':' != token[0];
      } else {
        assert t[i..i + |token|] == local[i - 1..i - 1 + |token|];
        assert !OccursAt(token, local, i - 1);
      }
    }
  }

  /** The built-in prefix names contain a colon, so they can never be the text before a colon:
      with only the built-ins, no template is expanded. */
  lemma {:induction false} BuiltinPrefixesNeverExpand(t: string)
    requires t != "a"
    ensures ParseUriTemplate(Str(t), BUILTIN_PREFIXES) == Success(IRI(t))
  {
    var token := BeforeColon(t);
    assert "rdfs:"[4] == ':' && "rdf:"[3] == ':' && "owl:"[3] == ':' && "xsd:"[3] == ':';
    assert forall k | k in BUILTIN_PREFIXES :: !Lacks(k, ':');
    assert token !in BUILTIN_PREFIXES;
  }

  // ---------------------------------------------------------------- rule groups

  /** A predicate (or predicate list) as the list of predicates it denotes. */
  function AsList(n: Node): seq<Node> {
    if n.List? then n.items else [n]
  }

  /** One dict-form object item as the elements it contributes: its value (under `value`, `v`,
      `mappings` or `mapping`), then `<language>~lang` if it has a truthy `language`, then its
      truthy `datatype`. Any other item contributes itself. */
  function FlattenOne(obj: Node, env: Env): (r: seq<Node>)
    ensures !obj.Dict? ==> r == [obj]
    ensures obj.Dict? ==>
              var language := Lookup(obj.entries, "language");
              var dtype := Lookup(obj.entries, "datatype");
              var hasLanguage := language.Some? && Truthy(language.value);
              var hasType := dtype.Some? && Truthy(dtype.value);
              && |r| == 1 + (if hasLanguage then 1 else 0) + (if hasType then 1 else 0)
              && r[0] == GetKeys(obj, VALUE_KEYS + MAPPING_KEYS).value
              && (hasLanguage ==> r[1] == Str(ToText(language.value, env.repr) + LANG_MARKER))
              && (hasType ==> r[|r| - 1] == dtype.value)
  {
    match obj
    case Dict(es) =>
      var value := GetKeys(obj, VALUE_KEYS + MAPPING_KEYS).value;
      var language := Lookup(es, "language");
      var dtype := Lookup(es, "datatype");
      [value]
      + (if language.Some? && Truthy(language.value)
         then [Str(ToText(language.value, env.repr) + LANG_MARKER)] else [])
      + (if dtype.Some? && Truthy(dtype.value) then [dtype.value] else [])
    case _ => [obj]
  }

  /** All dict-form object items flattened, in order, into the elements of ONE object spec. */
  function FlattenObjects(items: seq<Node>, env: Env): (r: seq<Node>)
    ensures |items| <= |r| <= 3 * |items|
    ensures (forall i | 0 <= i < |items| :: !items[i].Dict?) ==> r == items
    ensures |items| == 1 ==> r == FlattenOne(items[0], env)
  {
    if |items| == 0 then []
    else FlattenOne(items[0], env) + FlattenObjects(items[1..], env)
  }

  /** Flattening distributes over concatenation: every item contributes its own elements, in
      place, independently of its neighbours. */
  lemma {:induction false} FlattenObjectsAppend(a: seq<Node>, b: seq<Node>, env: Env)
    ensures FlattenObjects(a + b, env) == FlattenObjects(a, env) + FlattenObjects(b, env)
    decreases |a|
  {
    if |a| > 0 {
      assert (a + b)[1..] == a[1..] + b;
      FlattenObjectsAppend(a[1..], b, env);
    } else {
      assert a + b == b;
    }
  }

  /** `uniformize_predicate_object`: a rule group as `[predicates, object specs]`, where a
      shortened result makes the caller fail. */
  function Uniformize(group: Node, env: Env): (r: Result<seq<seq<Node>>, PyError>)
    ensures group.List? && |group.items| <= 1 ==> r == Success([])
    ensures group.List? && |group.items| > 1 ==>
              && r.Success?
              && 1 <= |r.value| <= 2
              && r.value[0] == AsList(group.items[0])
              && (|r.value| == 1 <==> group.items[1] == List([]))
    ensures group.List? && |group.items| > 1 && !group.items[1].List? ==>
              r.value[1] == [List(group.items[1..])]
    ensures group.List? && |group.items| > 1 && group.items[1].List? && |group.items[1].items| > 0 ==>
              r.value[1] == if group.items[1].items[0].List? then group.items[1].items else [group.items[1]]
    ensures group.Dict? ==> r.Success?
    ensures group.Dict? ==>
              var predicates := GetKeys(group, PREDICATE_KEYS).value;
              var objects := GetKeys(group, OBJECT_KEYS).value;
              if !Truthy(predicates) || !Truthy(objects) then r.value == []
              else && |r.value| == 2 && r.value[0] == AsList(predicates)
                   && r.value[1] == [if objects.List? then List(FlattenObjects(objects.items, env)) else objects]
  {
    match group
    case List(xs) =>
      if |xs| <= 1 then Success([])
      else
        var predicates := AsList(xs[0]);
        if xs[1].List? then
          var objects := xs[1].items;
          if |objects| == 0 then Success([predicates])
          else if objects[0].List? then Success([predicates, objects])
          else Success([predicates, [List(objects)]])
        else Success([predicates, [List(xs[1..])]])
    case Dict(_) =>
      Success(DictRule(GetKeys(group, PREDICATE_KEYS).value, GetKeys(group, OBJECT_KEYS).value, env))
    case Str(_) =>
      var predicates :- GetKeys(group, PREDICATE_KEYS);
      var objects :- GetKeys(group, OBJECT_KEYS);
      Success(DictRule(predicates, objects, env))
    case _ => Failure(TypeError)
  }

  /** The dict-form rule built from the values found under the predicate and object aliases:
      nothing when either is false. */
  function DictRule(predicates: Node, objects: Node, env: Env): seq<seq<Node>> {
    if !Truthy(predicates) || !Truthy(objects) then []
    else if objects.List? then [AsList(predicates), [List(FlattenObjects(objects.items, env))]]
    else [AsList(predicates), [objects]]
  }

  /** The list shortcut `[p, o1, o2, ...]` and the bracketed `[p, [o1, o2, ...]]` give the same
      rule when the first object element is not itself a list. */
  lemma ShortcutFormsAgree(p: Node, objects: seq<Node>, env: Env)
    requires |objects| > 0 && !objects[0].List?
    ensures Uniformize(List([p] + objects), env) == Uniformize(List([p, List(objects)]), env)
    ensures Uniformize(List([p] + objects), env).value == [AsList(p), [List(objects)]]
  {
    assert ([p] + objects)[1..] == objects;
  }

  /** A dict-form group `{p: P, o: [{value: v, language: l}]}` compiles to the same rule as the
      list form `[P, v, "<l>~lang"]`. */
  lemma DictFormMatchesListForm(pred: Node, v: Node, language: string, env: Env)
    requires Truthy(pred) && !v.List? && |language| > 0
    ensures var item := Dict([("value", v), ("language", Str(language))]);
            Uniformize(Dict([("p", pred), ("o", List([item]))]), env)
            == Uniformize(List([pred, v, Str(language + LANG_MARKER)]), env)
  {
    var item := Dict([("value", v), ("language", Str(language))]);
    DictFormRule(pred, item, env);
    LanguageItemFlattens(v, language, env);
    ListFormRule(pred, v, Str(language + LANG_MARKER), env);
  }

  /** A dict-form group `{p: P, o: [{value: v, datatype: d}]}` compiles to the same rule as the
      list form `[P, v, d]`. */
  lemma DictDatatypeMatchesListForm(pred: Node, v: Node, dtype: Node, env: Env)
    requires Truthy(pred) && !v.List? && Truthy(dtype)
    ensures var item := Dict([("value", v), ("datatype", dtype)]);
            Uniformize(Dict([("p", pred), ("o", List([item]))]), env)
            == Uniformize(List([pred, v, dtype]), env)
  {
    var item := Dict([("value", v), ("datatype", dtype)]);
    DictFormRule(pred, item, env);
    DatatypeItemFlattens(v, dtype, env);
    ListFormRule(pred, v, dtype, env);
  }

  /** `{p: P, o: [item]}` is the rule with predicates `P` and the one object spec `item` flattens to. */
  lemma DictFormRule(pred: Node, item: Node, env: Env)
    requires Truthy(pred)
    ensures Uniformize(Dict([("p", pred), ("o", List([item]))]), env)
            == Success([AsList(pred), [List(FlattenObjects([item], env))]])
  {
    ShortKeysFound(pred, List([item]));
  }

  /** `[P, v, x]` with `v` not a list is the rule with predicates `P` and the one object spec `[v, x]`. */
  lemma ListFormRule(pred: Node, v: Node, x: Node, env: Env)
    requires !v.List?
    ensures Uniformize(List([pred, v, x]), env) == Success([AsList(pred), [List([v, x])]])
  {
    assert [pred, v, x][1..] == [v, x];
  }

  /** In `{p: P, o: O}` the predicate and object aliases find `P` and `O`. */
  lemma ShortKeysFound(pred: Node, objects: Node)
    ensures GetKeys(Dict([("p", pred), ("o", objects)]), PREDICATE_KEYS) == Success(pred)
    ensures GetKeys(Dict([("p", pred), ("o", objects)]), OBJECT_KEYS) == Success(objects)
  {
    var group := Dict([("p", pred), ("o", objects)]);
    assert Lookup(group.entries, PREDICATE_KEYS[0]).None? && Lookup(group.entries, PREDICATE_KEYS[1]).None?;
    assert Lookup(group.entries, PREDICATE_KEYS[2]) == Some(pred);
    assert Lookup(group.entries, OBJECT_KEYS[0]).None? && Lookup(group.entries, OBJECT_KEYS[1]).None?;
    assert Lookup(group.entries, OBJECT_KEYS[2]) == Some(objects);
  }

  /** The object item `{value: v, language: l}` flattens to `v` followed by `"<l>~lang"`. */
  lemma LanguageItemFlattens(v: Node, language: string, env: Env)
    requires |language| > 0
    ensures FlattenObjects([Dict([("value", v), ("language", Str(language))])], env) == [v, Str(language + LANG_MARKER)]
  {
    var item := Dict([("value", v), ("language", Str(language))]);
    assert Lookup(item.entries, (VALUE_KEYS + MAPPING_KEYS)[0]) == Some(v);
    assert Lookup(item.entries, "datatype").None?;
    assert FlattenOne(item, env) == [v, Str(language + LANG_MARKER)];
    assert [item][1..] == [];
  }

  /** The object item `{value: v, datatype: d}` flattens to `v` followed by `d`. */
  lemma DatatypeItemFlattens(v: Node, dtype: Node, env: Env)
    requires Truthy(dtype)
    ensures FlattenObjects([Dict([("value", v), ("datatype", dtype)])], env) == [v, dtype]
  {
    var item := Dict([("value", v), ("datatype", dtype)]);
    assert Lookup(item.entries, (VALUE_KEYS + MAPPING_KEYS)[0]) == Some(v);
    assert Lookup(item.entries, "language").None?;
    assert FlattenOne(item, env) == [v, dtype];
  }

  // ---------------------------------------------------------------- objects

  /** A trailing element of an object spec that names a language: a string containing `~lang`. */
  predicate IsLanguageElement(e: Node) {
    e.Str? && IsInfix(LANG_MARKER, e.s)
  }

  /** A trailing element that names a datatype: a string without `~lang` whose expansion as an
      IRI template matches the URL pattern. */
  predicate IsDatatypeElement(e: Node, prefixes: PrefixTable, env: Env) {
    && e.Str? && !IsInfix(LANG_MARKER, e.s)
    && ParseUriTemplate(e, prefixes).Success? && env.matchesUrl(ParseUriTemplate(e, prefixes).value.iri)
  }

  /** A trailing element the tag loop gets through: a language element, or a string whose
      expansion succeeds. */
  predicate ElementParses(e: Node, prefixes: PrefixTable) {
    e.Str? && (IsInfix(LANG_MARKER, e.s) || ParseUriTemplate(e, prefixes).Success?)
  }

  /** Element `i` is the last language element. */
  predicate LastLanguage(rest: seq<Node>, i: int) {
    0 <= i < |rest| && IsLanguageElement(rest[i])
    && forall j | i < j < |rest| :: !IsLanguageElement(rest[j])
  }

  /** Element `i` is the last datatype element. */
  predicate LastDatatype(rest: seq<Node>, i: int, prefixes: PrefixTable, env: Env) {
    0 <= i < |rest| && IsDatatypeElement(rest[i], prefixes, env)
    && forall j | i < j < |rest| :: !IsDatatypeElement(rest[j], prefixes, env)
  }

  /** The tags after one more trailing element: a language element replaces the language by its
      text without the marker; any other element replaces the datatype by its expansion when that
      matches the URL pattern. */
  function NextTags(e: Node, prefixes: PrefixTable, env: Env, tags: (Option<string>, Option<string>))
    : (r: (Option<string>, Option<string>))
    requires ElementParses(e, prefixes)
    ensures IsLanguageElement(e) ==> r == (Some(ReplaceAll(e.s, LANG_MARKER, "")), tags.1)
    ensures IsDatatypeElement(e, prefixes, env) ==> r == (tags.0, Some(ParseUriTemplate(e, prefixes).value.iri))
    ensures !IsLanguageElement(e) && !IsDatatypeElement(e, prefixes, env) ==> r == tags
  {
    if IsInfix(LANG_MARKER, e.s) then (Some(ReplaceAll(e.s, LANG_MARKER, "")), tags.1)
    else
      var u := ParseUriTemplate(e, prefixes).value;
      (tags.0, if env.matchesUrl(u.iri) then Some(u.iri) else tags.1)
  }

  /** `r` is what the tag loop makes of `rest`, starting from `lang` and `dt`: it succeeds exactly
      when every element gets through; the language is that of the last language element (or
      `lang` when there is none), the datatype that of the last datatype element (or `dt`). */
  ghost predicate TagsChosen(rest: seq<Node>, prefixes: PrefixTable, env: Env, lang: Option<string>, dt: Option<string>,
                             r: Result<(Option<string>, Option<string>), PyError>) {
    && (r.Success? <==> forall i | 0 <= i < |rest| :: ElementParses(rest[i], prefixes))
    && (r.Success? && (forall i | 0 <= i < |rest| :: !IsLanguageElement(rest[i])) ==> r.value.0 == lang)
    && (r.Success? ==> forall i | LastLanguage(rest, i) :: r.value.0 == Some(ReplaceAll(rest[i].s, LANG_MARKER, "")))
    && (r.Success? && (forall i | 0 <= i < |rest| :: !IsDatatypeElement(rest[i], prefixes, env)) ==> r.value.1 == dt)
    && (r.Success? ==>
          forall i | LastDatatype(rest, i, prefixes, env) :: r.value.1 == Some(ParseUriTemplate(rest[i], prefixes).value.iri))
  }

  /** The tag loop over an object spec's trailing elements (`obj[1:]`), starting from `lang` and
      `dt`. */
  function LiteralTags(rest: seq<Node>, prefixes: PrefixTable, env: Env, lang: Option<string>, dt: Option<string>)
    : (r: Result<(Option<string>, Option<string>), PyError>)
    decreases |rest|
    ensures TagsChosen(rest, prefixes, env, lang, dt, r)
  {
    if |rest| == 0 then Success((lang, dt))
    else if !rest[0].Str? then Failure(if rest[0].List? || rest[0].Dict? then AttributeError else TypeError)
    else if !IsInfix(LANG_MARKER, rest[0].s) && ParseUriTemplate(rest[0], prefixes).Failure? then
      Failure(ParseUriTemplate(rest[0], prefixes).error)
    else
      var next := NextTags(rest[0], prefixes, env, (lang, dt));
      var r := LiteralTags(rest[1..], prefixes, env, next.0, next.1);
      TagsChosenStep(rest, prefixes, env, lang, dt, r);
      r
  }

  /** The tag loop's contract for `rest` follows from the one for `rest[1..]` after the first
      element's turn. */
  lemma TagsChosenStep(rest: seq<Node>, prefixes: PrefixTable, env: Env, lang: Option<string>, dt: Option<string>,
                       r: Result<(Option<string>, Option<string>), PyError>)
    requires |rest| > 0 && ElementParses(rest[0], prefixes)
    requires var next := NextTags(rest[0], prefixes, env, (lang, dt));
             TagsChosen(rest[1..], prefixes, env, next.0, next.1, r)
    ensures TagsChosen(rest, prefixes, env, lang, dt, r)
  {
    var next := NextTags(rest[0], prefixes, env, (lang, dt));
    var tail := rest[1..];
    assert forall i | 1 <= i < |rest| :: rest[i] == tail[i - 1];
    if r.Success? {
      forall i | LastLanguage(rest, i)
        ensures r.value.0 == Some(ReplaceAll(rest[i].s, LANG_MARKER, ""))
      {
        if i > 0 {
          assert LastLanguage(tail, i - 1);
        } else {
          assert forall j | 0 <= j < |tail| :: !IsLanguageElement(tail[j]);
        }
      }
      forall i | LastDatatype(rest, i, prefixes, env)
        ensures r.value.1 == Some(ParseUriTemplate(rest[i], prefixes).value.iri)
      {
        if i > 0 {
          assert LastDatatype(tail, i - 1, prefixes, env);
        } else {
          assert forall j | 0 <= j < |tail| :: !IsDatatypeElement(tail[j], prefixes, env);
        }
      }
    }
  }

  /** `Literal(v, lang=language)` when the language is non-empty, else
      `Literal(v, datatype=datatype)`: a language wins over a datatype. */
  function TaggedLiteral(v: string, tags: (Option<string>, Option<string>)): (o: Term)
    ensures o.Literal? && o.text == v && TagsExclusive(o)
    ensures tags.0.Some? && |tags.0.value| > 0 ==> o.lang == tags.0 && o.dtype.None?
    ensures !(tags.0.Some? && |tags.0.value| > 0) ==> o.lang.None? && o.dtype == tags.1
  {
    if tags.0.Some? && |tags.0.value| > 0 then Literal(v, tags.0, None) else Literal(v, None, tags.1)
  }

  /** What an object spec with elements `elements` (the first a string `v`) must compile to:
      the expansion of `v` when `v` itself matches the URL pattern (the test runs before any
      prefix expansion), else the subject of the mapping entry named `v`, else the literal `v`
      tagged by the trailing elements. */
  ghost predicate DecidedObject(elements: seq<Node>, o: Term, resources: Resources, prefixes: PrefixTable, env: Env)
    requires |elements| > 0 && elements[0].Str?
  {
    var v := elements[0].s;
    if env.matchesUrl(v) then ParseUriTemplate(elements[0], prefixes) == Success(o)
    else if v in resources then o == resources[v]
    else
      && LiteralTags(elements[1..], prefixes, env, None, None).Success?
      && o == TaggedLiteral(v, LiteralTags(elements[1..], prefixes, env, None, None).value)
  }

  /** A literal object that is not some entry's subject never carries both a language and a
      datatype, and a tag it carries is non-empty. */
  predicate LiteralTagsExclusive(o: Term, resources: Resources) {
    o.Literal? && o !in resources.Values ==> TagsExclusive(o)
  }

  /** When `parse_object` raises nothing: the spec's length and first element can be taken; an
      empty spec is fine; otherwise the first element is a string, a URL-like one expands, and
      for a literal every trailing tag element gets through the tag loop. */
  predicate ObjectSpecParses(obj: Node, resources: Resources, prefixes: PrefixTable, env: Env) {
    && ObjectElements(obj).Success?
    && var elements := ObjectElements(obj).value;
       (|elements| > 0 ==>
          && elements[0].Str?
          && (env.matchesUrl(elements[0].s) ==> ParseUriTemplate(elements[0], prefixes).Success?)
          && (!env.matchesUrl(elements[0].s) && elements[0].s !in resources ==>
                forall i | 1 <= i < |elements| :: ElementParses(elements[i], prefixes)))
  }

  /** `parse_object`: the triples (none or one) a single object spec adds for one predicate. */
  function ParseObject(subject: Term, pred: Term, obj: Node, resources: Resources, prefixes: PrefixTable, env: Env)
    : (r: Result<set<Triple>, PyError>)
    ensures ObjectElements(obj) == Success([]) ==> r == Success({})
    ensures r.Success? <==> ObjectSpecParses(obj, resources, prefixes, env)
    ensures r.Success? ==> ObjectElements(obj).Success? && |r.value| <= 1
    ensures r.Success? ==> (r.value == {} <==> ObjectElements(obj).value == [])
    ensures r.Success? ==>
              forall t | t in r.value ::
                && t.s == subject && t.p == pred
                && |ObjectElements(obj).value| > 0 && ObjectElements(obj).value[0].Str?
                && DecidedObject(ObjectElements(obj).value, t.o, resources, prefixes, env)
                && LiteralTagsExclusive(t.o, resources)
  {
    var elements :- ObjectElements(obj);
    if |elements| == 0 then Success({})
    else if !elements[0].Str? then Failure(TypeError)
    else
      var v := elements[0].s;
      if env.matchesUrl(v) then
        var o :- ParseUriTemplate(elements[0], prefixes);
        Success({Triple(subject, pred, o)})
      else if v in resources then Success({Triple(subject, pred, resources[v])})
      else
        assert forall i | 1 <= i < |elements| :: elements[i] == elements[1..][i - 1];
        var tags :- LiteralTags(elements[1..], prefixes, env, None, None);
        Success({Triple(subject, pred, TaggedLiteral(v, tags))})
  }

  /** `<tag>~lang` names the language `tag`: the marker is found and removing it gives `tag`. */
  lemma MarkerRemoved(tag: string)
    requires Lacks(tag, '~')
    ensures IsInfix(LANG_MARKER, tag + LANG_MARKER)
    ensures ReplaceAll(tag + LANG_MARKER, LANG_MARKER, "") == tag
  {
    assert OccursAt(LANG_MARKER, tag + LANG_MARKER, |tag|);
    ReplaceSkipsPrefix(tag, LANG_MARKER, LANG_MARKER, "");
    ReplaceWhole(LANG_MARKER, "", []);
    assert LANG_MARKER + [] == LANG_MARKER;
    assert tag + "" == tag;
  }

  /** A literal object with a language marker and a valid datatype gets only the language. */
  lemma LanguageWinsOverDatatype(subject: Term, pred: Term, v: string, tag: string, dt: string,
                                 resources: Resources, prefixes: PrefixTable, env: Env)
    requires !env.matchesUrl(v) && v !in resources
    requires |tag| > 0 && Lacks(tag, '~') && !IsInfix(LANG_MARKER, dt)
    requires ParseUriTemplate(Str(dt), prefixes).Success?
    ensures ParseObject(subject, pred, List([Str(v), Str(tag + LANG_MARKER), Str(dt)]), resources, prefixes, env)
            == Success({Triple(subject, pred, Literal(v, Some(tag), None))})
  {
    var marked := tag + LANG_MARKER;
    MarkerRemoved(tag);
    var elements := [Str(v), Str(marked), Str(dt)];
    assert elements[1..] == [Str(marked), Str(dt)];
    assert [Str(marked), Str(dt)][1..] == [Str(dt)];
    assert [Str(dt)][1..] == [];
    var tail := LiteralTags([Str(dt)], prefixes, env, Some(tag), None);
    var u := ParseUriTemplate(Str(dt), prefixes).value;
    var d: Option<string> := if env.matchesUrl(u.iri) then Some(u.iri) else None;
    assert LiteralTags([], prefixes, env, Some(tag), d) == Success((Some(tag), d));
    assert tail == LiteralTags([], prefixes, env, Some(tag), d);
    assert LiteralTags(elements[1..], prefixes, env, None, None) == tail;
  }

  // ---------------------------------------------------------------- rule expansion

  /** Compiling the object spec `obj` succeeds. */
  predicate ObjectCompiles(subject: Term, pred: Term, obj: Node, resources: Resources, prefixes: PrefixTable, env: Env) {
    ParseObject(subject, pred, obj, resources, prefixes, env).Success?
  }

  /** Compiling the object spec `obj` succeeds and adds `t`. */
  predicate ObjectAdds(subject: Term, pred: Term, obj: Node, resources: Resources, prefixes: PrefixTable, env: Env, t: Triple) {
    ObjectCompiles(subject, pred, obj, resources, prefixes, env)
    && t in ParseObject(subject, pred, obj, resources, prefixes, env).value
  }

  /** Every object spec of a rule, compiled against one predicate. */
  function ObjectsTriples(subject: Term, pred: Term, objects: seq<Node>, resources: Resources,
                          prefixes: PrefixTable, env: Env): (r: Result<set<Triple>, PyError>)
    decreases |objects|
    ensures r.Success? <==> forall i | 0 <= i < |objects| :: ObjectCompiles(subject, pred, objects[i], resources, prefixes, env)
    ensures r.Success? ==>
              forall t :: t in r.value <==>
                exists i | 0 <= i < |objects| :: ObjectAdds(subject, pred, objects[i], resources, prefixes, env, t)
    ensures r.Success? ==> forall t | t in r.value :: t.s == subject && t.p == pred && LiteralTagsExclusive(t.o, resources)
  {
    if |objects| == 0 then Success({})
    else
      var here :- ParseObject(subject, pred, objects[0], resources, prefixes, env);
      assert forall i | 1 <= i < |objects| :: objects[i] == objects[1..][i - 1];
      var rest :- ObjectsTriples(subject, pred, objects[1..], resources, prefixes, env);
      ObjectsCompileStep(subject, pred, objects, resources, prefixes, env);
      ObjectsMembersStep(subject, pred, objects, resources, prefixes, env, here, rest);
      Success(here + rest)
  }

  /** If the first object spec compiles and so do the others, all of them do. */
  lemma ObjectsCompileStep(subject: Term, pred: Term, objects: seq<Node>, resources: Resources,
                           prefixes: PrefixTable, env: Env)
    requires |objects| > 0 && ObjectCompiles(subject, pred, objects[0], resources, prefixes, env)
    requires forall i | 0 <= i < |objects[1..]| :: ObjectCompiles(subject, pred, objects[1..][i], resources, prefixes, env)
    ensures forall i | 0 <= i < |objects| :: ObjectCompiles(subject, pred, objects[i], resources, prefixes, env)
  {
    forall i | 1 <= i < |objects|
      ensures ObjectCompiles(subject, pred, objects[i], resources, prefixes, env)
    {
      assert objects[i] == objects[1..][i - 1];
    }
  }

  /** The triples of the first object spec plus those of the others are the triples of some
      object spec. */
  lemma ObjectsMembersStep(subject: Term, pred: Term, objects: seq<Node>, resources: Resources,
                           prefixes: PrefixTable, env: Env, here: set<Triple>, rest: set<Triple>)
    requires |objects| > 0 && ParseObject(subject, pred, objects[0], resources, prefixes, env) == Success(here)
    requires forall t :: t in rest <==>
               exists i | 0 <= i < |objects[1..]| :: ObjectAdds(subject, pred, objects[1..][i], resources, prefixes, env, t)
    ensures forall t :: t in here + rest <==>
              exists i | 0 <= i < |objects| :: ObjectAdds(subject, pred, objects[i], resources, prefixes, env, t)
  {
    forall t
      ensures t in here + rest <==>
              exists i | 0 <= i < |objects| :: ObjectAdds(subject, pred, objects[i], resources, prefixes, env, t)
    {
      if t in here {
        assert ObjectAdds(subject, pred, objects[0], resources, prefixes, env, t);
      } else if t in rest {
        var k :| 0 <= k < |objects[1..]| && ObjectAdds(subject, pred, objects[1..][k], resources, prefixes, env, t);
        assert objects[1..][k] == objects[k + 1];
      }
      if exists i | 0 <= i < |objects| :: ObjectAdds(subject, pred, objects[i], resources, prefixes, env, t) {
        var i :| 0 <= i < |objects| && ObjectAdds(subject, pred, objects[i], resources, prefixes, env, t);
        if i > 0 {
          assert objects[i] == objects[1..][i - 1];
        }
      }
    }
  }

  /** The predicate template `pred` compiles, and one of the object specs adds `t` for it. */
  ghost predicate PredicateAdds(subject: Term, pred: Node, objects: seq<Node>, resources: Resources,
                                prefixes: PrefixTable, env: Env, t: Triple) {
    && ParseUriTemplate(pred, prefixes).Success?
    && exists j | 0 <= j < |objects| ::
         ObjectAdds(subject, ParseUriTemplate(pred, prefixes).value, objects[j], resources, prefixes, env, t)
  }

  /** The predicate template `pred` compiles, the rule has an object list, and every object spec
      of it compiles against the expanded predicate. */
  predicate PredicateCompiles(subject: Term, pred: Node, rule: seq<seq<Node>>, resources: Resources,
                              prefixes: PrefixTable, env: Env) {
    && ParseUriTemplate(pred, prefixes).Success? && |rule| >= 2
    && forall j | 0 <= j < |rule[1]| ::
         ObjectCompiles(subject, ParseUriTemplate(pred, prefixes).value, rule[1][j], resources, prefixes, env)
  }

  /** One predicate of a uniformized rule crossed with every object spec; `rule[1]` is read only
      once the predicate has been expanded, as the nested loops do. */
  function PredicateTriples(subject: Term, pred: Node, rule: seq<seq<Node>>, resources: Resources,
                            prefixes: PrefixTable, env: Env): (r: Result<set<Triple>, PyError>)
    ensures |rule| < 2 && ParseUriTemplate(pred, prefixes).Success? ==> r == Failure(IndexError)
    ensures r.Success? <==> PredicateCompiles(subject, pred, rule, resources, prefixes, env)
    ensures r.Success? ==> forall t :: t in r.value <==> PredicateAdds(subject, pred, rule[1], resources, prefixes, env, t)
    ensures r.Success? ==> forall t | t in r.value :: t.s == subject && t.p.IRI? && LiteralTagsExclusive(t.o, resources)
  {
    var p :- ParseUriTemplate(pred, prefixes);
    if |rule| < 2 then Failure(IndexError)
    else ObjectsTriples(subject, p, rule[1], resources, prefixes, env)
  }

  /** Every predicate of a uniformized rule crossed with every object spec. */
  function PredicatesTriples(subject: Term, predicates: seq<Node>, rule: seq<seq<Node>>, resources: Resources,
                             prefixes: PrefixTable, env: Env): (r: Result<set<Triple>, PyError>)
    decreases |predicates|
    ensures |predicates| == 0 ==> r == Success({})
    ensures |predicates| > 0 && |rule| < 2 && ParseUriTemplate(predicates[0], prefixes).Success? ==>
              r == Failure(IndexError)
    ensures r.Success? && |predicates| > 0 ==> |rule| >= 2
    ensures r.Success? <==>
              forall i | 0 <= i < |predicates| :: PredicateCompiles(subject, predicates[i], rule, resources, prefixes, env)
    ensures r.Success? ==>
              forall t :: t in r.value <==>
                exists i | 0 <= i < |predicates| :: PredicateAdds(subject, predicates[i], rule[1], resources, prefixes, env, t)
    ensures r.Success? ==> forall t | t in r.value :: t.s == subject && t.p.IRI? && LiteralTagsExclusive(t.o, resources)
  {
    if |predicates| == 0 then Success({})
    else
      var here :- PredicateTriples(subject, predicates[0], rule, resources, prefixes, env);
      var rest :- PredicatesTriples(subject, predicates[1..], rule, resources, prefixes, env);
      PredicatesMembersStep(subject, predicates, rule, resources, prefixes, env, here, rest);
      Success(here + rest)
  }

  /** The triples of the first predicate plus those of the others are the triples of some
      predicate; every predicate compiles and every triple has the subject and the shapes. */
  lemma PredicatesMembersStep(subject: Term, predicates: seq<Node>, rule: seq<seq<Node>>, resources: Resources,
                              prefixes: PrefixTable, env: Env, here: set<Triple>, rest: set<Triple>)
    requires |predicates| > 0 && PredicateCompiles(subject, predicates[0], rule, resources, prefixes, env)
    requires forall i | 0 <= i < |predicates[1..]| :: PredicateCompiles(subject, predicates[1..][i], rule, resources, prefixes, env)
    requires forall t :: t in here <==> PredicateAdds(subject, predicates[0], rule[1], resources, prefixes, env, t)
    requires forall t :: t in rest <==>
               exists i | 0 <= i < |predicates[1..]| :: PredicateAdds(subject, predicates[1..][i], rule[1], resources, prefixes, env, t)
    requires forall t | t in here + rest :: t.s == subject && t.p.IRI? && LiteralTagsExclusive(t.o, resources)
    ensures forall i | 0 <= i < |predicates| :: PredicateCompiles(subject, predicates[i], rule, resources, prefixes, env)
    ensures forall t :: t in here + rest <==>
              exists i | 0 <= i < |predicates| :: PredicateAdds(subject, predicates[i], rule[1], resources, prefixes, env, t)
    ensures forall t | t in here + rest :: t.s == subject && t.p.IRI? && LiteralTagsExclusive(t.o, resources)
  {
    var objects := rule[1];
    assert forall i | 1 <= i < |predicates| :: predicates[i] == predicates[1..][i - 1];
    forall t
      ensures t in here + rest <==>
              exists i | 0 <= i < |predicates| :: PredicateAdds(subject, predicates[i], objects, resources, prefixes, env, t)
    {
      if t in here {
        assert PredicateAdds(subject, predicates[0], objects, resources, prefixes, env, t);
      } else if t in rest {
        var k :| 0 <= k < |predicates[1..]| && PredicateAdds(subject, predicates[1..][k], objects, resources, prefixes, env, t);
        assert predicates[1..][k] == predicates[k + 1];
      }
      if exists i | 0 <= i < |predicates| :: PredicateAdds(subject, predicates[i], objects, resources, prefixes, env, t) {
        var i :| 0 <= i < |predicates| && PredicateAdds(subject, predicates[i], objects, resources, prefixes, env, t);
        if i > 0 {
          assert predicates[i] == predicates[1..][i - 1];
        }
      }
    }
  }

  /** Some predicate of the rule compiles and one of the rule's object specs adds `t` for it. */
  ghost predicate RuleAdds(subject: Term, rule: seq<seq<Node>>, resources: Resources, prefixes: PrefixTable, env: Env,
                           t: Triple) {
    |rule| >= 2 && exists i | 0 <= i < |rule[0]| :: PredicateAdds(subject, rule[0][i], rule[1], resources, prefixes, env, t)
  }

  /** The rule has a predicate list and every predicate in it compiles. */
  predicate RuleCompiles(subject: Term, rule: seq<seq<Node>>, resources: Resources, prefixes: PrefixTable, env: Env) {
    |rule| > 0 && forall i | 0 <= i < |rule[0]| :: PredicateCompiles(subject, rule[0][i], rule, resources, prefixes, env)
  }

  /** The triples of one uniformized rule group; an empty result of uniformizing fails. */
  function RuleTriples(subject: Term, rule: seq<seq<Node>>, resources: Resources, prefixes: PrefixTable, env: Env)
    : (r: Result<set<Triple>, PyError>)
    ensures |rule| == 0 ==> r == Failure(IndexError)
    ensures r.Success? <==> RuleCompiles(subject, rule, resources, prefixes, env)
    ensures r.Success? ==> forall t :: t in r.value <==> RuleAdds(subject, rule, resources, prefixes, env, t)
    ensures r.Success? ==> forall t | t in r.value :: t.s == subject && t.p.IRI? && LiteralTagsExclusive(t.o, resources)
  {
    if |rule| == 0 then Failure(IndexError)
    else PredicatesTriples(subject, rule[0], rule, resources, prefixes, env)
  }

  /** The rule group uniformizes and its rule adds `t`. */
  ghost predicate GroupAdds(subject: Term, group: Node, resources: Resources, prefixes: PrefixTable, env: Env, t: Triple) {
    Uniformize(group, env).Success? && RuleAdds(subject, Uniformize(group, env).value, resources, prefixes, env, t)
  }

  /** The rule group `group` uniformizes and its rule compiles. */
  predicate GroupCompiles(subject: Term, group: Node, resources: Resources, prefixes: PrefixTable, env: Env) {
    Uniformize(group, env).Success? && RuleCompiles(subject, Uniformize(group, env).value, resources, prefixes, env)
  }

  /** One rule group: uniformized, then compiled as a rule. */
  function GroupTriples(subject: Term, group: Node, resources: Resources, prefixes: PrefixTable, env: Env)
    : (r: Result<set<Triple>, PyError>)
    ensures r.Success? <==> GroupCompiles(subject, group, resources, prefixes, env)
    ensures r.Success? ==> forall t :: t in r.value <==> GroupAdds(subject, group, resources, prefixes, env, t)
    ensures r.Success? ==> forall t | t in r.value :: t.s == subject && t.p.IRI? && LiteralTagsExclusive(t.o, resources)
  {
    var rule :- Uniformize(group, env);
    RuleTriples(subject, rule, resources, prefixes, env)
  }

  /** All rule groups of one mapping entry, in order; the first failing group aborts. */
  function GroupsTriples(subject: Term, groups: seq<Node>, resources: Resources, prefixes: PrefixTable, env: Env)
    : (r: Result<set<Triple>, PyError>)
    decreases |groups|
    ensures r.Success? <==> forall i | 0 <= i < |groups| :: GroupCompiles(subject, groups[i], resources, prefixes, env)
    ensures r.Success? ==>
              forall t :: t in r.value <==> exists i | 0 <= i < |groups| :: GroupAdds(subject, groups[i], resources, prefixes, env, t)
    ensures r.Success? ==> forall t | t in r.value :: t.s == subject && t.p.IRI? && LiteralTagsExclusive(t.o, resources)
  {
    if |groups| == 0 then Success({})
    else
      var here :- GroupTriples(subject, groups[0], resources, prefixes, env);
      assert forall i | 1 <= i < |groups| :: groups[i] == groups[1..][i - 1];
      var rest :- GroupsTriples(subject, groups[1..], resources, prefixes, env);
      GroupsMembersStep(subject, groups, resources, prefixes, env, here, rest);
      Success(here + rest)
  }

  /** The triples of the first rule group plus those of the others are the triples of some
      group; every group compiles and every triple has the subject and the shapes. */
  lemma GroupsMembersStep(subject: Term, groups: seq<Node>, resources: Resources, prefixes: PrefixTable, env: Env,
                          here: set<Triple>, rest: set<Triple>)
    requires |groups| > 0 && GroupCompiles(subject, groups[0], resources, prefixes, env)
    requires forall i | 0 <= i < |groups[1..]| :: GroupCompiles(subject, groups[1..][i], resources, prefixes, env)
    requires forall t :: t in here <==> GroupAdds(subject, groups[0], resources, prefixes, env, t)
    requires forall t :: t in rest <==>
               exists i | 0 <= i < |groups[1..]| :: GroupAdds(subject, groups[1..][i], resources, prefixes, env, t)
    requires forall t | t in here + rest :: t.s == subject && t.p.IRI? && LiteralTagsExclusive(t.o, resources)
    ensures forall i | 0 <= i < |groups| :: GroupCompiles(subject, groups[i], resources, prefixes, env)
    ensures forall t :: t in here + rest <==>
              exists i | 0 <= i < |groups| :: GroupAdds(subject, groups[i], resources, prefixes, env, t)
    ensures forall t | t in here + rest :: t.s == subject && t.p.IRI? && LiteralTagsExclusive(t.o, resources)
  {
    assert forall i | 1 <= i < |groups| :: groups[i] == groups[1..][i - 1];
    forall t
      ensures t in here + rest <==> exists i | 0 <= i < |groups| :: GroupAdds(subject, groups[i], resources, prefixes, env, t)
    {
      if t in here {
        assert GroupAdds(subject, groups[0], resources, prefixes, env, t);
      } else if t in rest {
        var k :| 0 <= k < |groups[1..]| && GroupAdds(subject, groups[1..][k], resources, prefixes, env, t);
        assert groups[1..][k] == groups[k + 1];
      }
      if exists i | 0 <= i < |groups| :: GroupAdds(subject, groups[i], resources, prefixes, env, t) {
        var i :| 0 <= i < |groups| && GroupAdds(subject, groups[i], resources, prefixes, env, t);
        if i > 0 {
          assert groups[i] == groups[1..][i - 1];
        }
      }
    }
  }

  /** The entry body's rule-group section is found and iterated, and one of its groups adds `t`. */
  ghost predicate EntryAdds(subject: Term, body: Node, resources: Resources, prefixes: PrefixTable, env: Env, t: Triple) {
    && GetKeys(body, PREDICATE_OBJECT_KEYS).Success?
    && Iterate(GetKeys(body, PREDICATE_OBJECT_KEYS).value).Success?
    && var groups := Iterate(GetKeys(body, PREDICATE_OBJECT_KEYS).value).value;
       exists j | 0 <= j < |groups| :: GroupAdds(subject, groups[j], resources, prefixes, env, t)
  }

  /** The entry body's rule-group section is found and iterated, and every rule group in it
      compiles. */
  predicate EntryCompiles(subject: Term, body: Node, resources: Resources, prefixes: PrefixTable, env: Env) {
    && GetKeys(body, PREDICATE_OBJECT_KEYS).Success?
    && Iterate(GetKeys(body, PREDICATE_OBJECT_KEYS).value).Success?
    && var groups := Iterate(GetKeys(body, PREDICATE_OBJECT_KEYS).value).value;
       forall j | 0 <= j < |groups| :: GroupCompiles(subject, groups[j], resources, prefixes, env)
  }

  /** The rule groups of one mapping entry body, compiled against its subject. */
  function EntryTriples(subject: Term, body: Node, resources: Resources, prefixes: PrefixTable, env: Env)
    : (r: Result<set<Triple>, PyError>)
    ensures r.Success? <==> EntryCompiles(subject, body, resources, prefixes, env)
    ensures r.Success? ==> forall t :: t in r.value <==> EntryAdds(subject, body, resources, prefixes, env, t)
    ensures r.Success? ==> forall t | t in r.value :: t.s == subject && t.p.IRI? && LiteralTagsExclusive(t.o, resources)
  {
    var section :- GetKeys(body, PREDICATE_OBJECT_KEYS);
    var groups :- Iterate(section);
    GroupsTriples(subject, groups, resources, prefixes, env)
  }

  /** The entry has a compiled subject and its body adds `t` against it. */
  ghost predicate EntryContributes(entry: (string, Node), resources: Resources, prefixes: PrefixTable, env: Env, t: Triple) {
    entry.0 in resources && EntryAdds(resources[entry.0], entry.1, resources, prefixes, env, t)
  }

  /** Every entry with a registered subject compiles against that subject. */
  predicate EntriesCompile(entries: seq<(string, Node)>, resources: Resources, prefixes: PrefixTable, env: Env) {
    forall i | 0 <= i < |entries| && entries[i].0 in resources ::
      EntryCompiles(resources[entries[i].0], entries[i].1, resources, prefixes, env)
  }

  /** One mapping entry: its rules when its name has a registered subject, else nothing. */
  function EntryContribution(entry: (string, Node), resources: Resources, prefixes: PrefixTable, env: Env)
    : (r: Result<set<Triple>, PyError>)
    ensures r.Success? <==> (entry.0 in resources ==> EntryCompiles(resources[entry.0], entry.1, resources, prefixes, env))
    ensures r.Success? ==> forall t :: t in r.value <==> EntryContributes(entry, resources, prefixes, env, t)
    ensures r.Success? ==> forall t | t in r.value :: t.s in resources.Values && t.p.IRI? && LiteralTagsExclusive(t.o, resources)
  {
    if entry.0 in resources then EntryTriples(resources[entry.0], entry.1, resources, prefixes, env) else Success({})
  }

  /** Every mapping entry that has a compiled subject contributes its rules. */
  function EntriesTriples(entries: seq<(string, Node)>, resources: Resources, prefixes: PrefixTable, env: Env)
    : (r: Result<set<Triple>, PyError>)
    decreases |entries|
    ensures r.Success? <==> EntriesCompile(entries, resources, prefixes, env)
    ensures r.Success? ==>
              forall t :: t in r.value <==> exists i | 0 <= i < |entries| :: EntryContributes(entries[i], resources, prefixes, env, t)
    ensures r.Success? ==> forall t | t in r.value :: t.s in resources.Values && t.p.IRI? && LiteralTagsExclusive(t.o, resources)
  {
    if |entries| == 0 then Success({})
    else
      var here :- EntryContribution(entries[0], resources, prefixes, env);
      assert forall i | 1 <= i < |entries| :: entries[i] == entries[1..][i - 1];
      var rest :- EntriesTriples(entries[1..], resources, prefixes, env);
      EntriesMembersStep(entries, resources, prefixes, env, here, rest);
      Success(here + rest)
  }

  /** The triples of the first entry plus those of the others are the triples some entry
      contributes. */
  lemma EntriesMembersStep(entries: seq<(string, Node)>, resources: Resources, prefixes: PrefixTable, env: Env,
                           here: set<Triple>, rest: set<Triple>)
    requires |entries| > 0
    requires forall t :: t in here <==> EntryContributes(entries[0], resources, prefixes, env, t)
    requires forall t :: t in rest <==>
               exists i | 0 <= i < |entries[1..]| :: EntryContributes(entries[1..][i], resources, prefixes, env, t)
    ensures forall t :: t in here + rest <==>
              exists i | 0 <= i < |entries| :: EntryContributes(entries[i], resources, prefixes, env, t)
  {
    forall t
      ensures t in here + rest <==> exists i | 0 <= i < |entries| :: EntryContributes(entries[i], resources, prefixes, env, t)
    {
      if t in here {
        assert EntryContributes(entries[0], resources, prefixes, env, t);
      } else if t in rest {
        var k :| 0 <= k < |entries[1..]| && EntryContributes(entries[1..][k], resources, prefixes, env, t);
        assert entries[1..][k] == entries[k + 1];
      }
      if exists i | 0 <= i < |entries| :: EntryContributes(entries[i], resources, prefixes, env, t) {
        var i :| 0 <= i < |entries| && EntryContributes(entries[i], resources, prefixes, env, t);
        if i > 0 {
          assert entries[i] == entries[1..][i - 1];
        }
      }
    }
  }

  // ---------------------------------------------------------------- subjects and the whole document

  /** The entry is named `k` and has a `subject` key. */
  predicate Declares(entry: (string, Node), k: string) {
    entry.0 == k && In("subject", entry.1) == Success(true)
  }

  /** Testing the entry for a `subject` key succeeds, and if it has one its name is registered. */
  predicate Registered(entry: (string, Node), resources: Resources) {
    In("subject", entry.1).Success? && (In("subject", entry.1).value ==> entry.0 in resources)
  }

  /** Entry `i` is the first of `entries` named `k` that declares a subject. */
  ghost predicate FirstDeclaration(entries: seq<(string, Node)>, i: int, k: string) {
    0 <= i < |entries| && Declares(entries[i], k) && forall j | 0 <= j < i :: !Declares(entries[j], k)
  }

  /** The entry body's `subject` template compiles to `subject`. */
  predicate SubjectCompilesTo(body: Node, prefixes: PrefixTable, subject: Term) {
    Index(body, "subject").Success? && ParseUriTemplate(Index(body, "subject").value, prefixes) == Success(subject)
  }

  /** Every name that `res` adds to `acc` holds the compiled subject of that name's first
      declaring entry. */
  ghost predicate SubjectsFromFirst(entries: seq<(string, Node)>, prefixes: PrefixTable, acc: Resources, res: Resources) {
    forall k | k in res && k !in acc ::
      exists i :: FirstDeclaration(entries, i, k) && SubjectCompilesTo(entries[i].1, prefixes, res[k])
  }

  /** The entry body's `subject` template can be read and compiled. */
  predicate SubjectParses(body: Node, prefixes: PrefixTable) {
    Index(body, "subject").Success? && ParseUriTemplate(Index(body, "subject").value, prefixes).Success?
  }

  /** Entry `i` raises nothing in `parse_subjects`: testing it for a `subject` key succeeds, and
      if it is the first entry of its name to declare one and the name was not registered
      before, its template compiles. */
  ghost predicate EntrySubjectOk(entries: seq<(string, Node)>, i: int, prefixes: PrefixTable, acc: Resources) {
    && 0 <= i < |entries| && In("subject", entries[i].1).Success?
    && (FirstDeclaration(entries, i, entries[i].0) && entries[i].0 !in acc ==> SubjectParses(entries[i].1, prefixes))
  }

  /** No entry raises in `parse_subjects`. */
  ghost predicate SubjectsParse(entries: seq<(string, Node)>, prefixes: PrefixTable, acc: Resources) {
    forall i | 0 <= i < |entries| :: EntrySubjectOk(entries, i, prefixes, acc)
  }

  /** `parse_subjects` over the entries: each entry with a `subject` key and a name not yet
      registered gets its subject template compiled; other entries are skipped. */
  function SubjectsOf(entries: seq<(string, Node)>, prefixes: PrefixTable, acc: Resources): (r: Result<Resources, PyError>)
    decreases |entries|
    ensures r.Success? ==> acc.Keys <= r.value.Keys && forall k | k in acc :: r.value[k] == acc[k]
    ensures r.Success? ==> forall k | k in r.value && k !in acc :: r.value[k].IRI?
    ensures r.Success? ==> SubjectsFromFirst(entries, prefixes, acc, r.value)
    ensures r.Success? ==> forall i | 0 <= i < |entries| :: Registered(entries[i], r.value)
    ensures r.Success? <==> SubjectsParse(entries, prefixes, acc)
  {
    if |entries| == 0 then Success(acc)
    else
      var (name, body) := entries[0];
      assert SubjectsParse(entries, prefixes, acc) ==> EntrySubjectOk(entries, 0, prefixes, acc);
      assert In("subject", body) == Success(true) ==> FirstDeclaration(entries, 0, name);
      var declares :- In("subject", body);
      var next :- if declares && name !in acc then
                    var template :- Index(body, "subject");
                    var subject :- ParseUriTemplate(template, prefixes);
                    Success(acc[name := subject])
                  else Success(acc);
      SubjectsParseStep(entries, prefixes, acc, next);
      var res :- SubjectsOf(entries[1..], prefixes, next);
      SubjectsOfStep(entries, prefixes, acc, next, res);
      Success(res)
  }

  /** Once the first entry has been handled, the entries raise nothing exactly when the first
      one did not and the remaining ones, against the updated names, do not either. */
  lemma SubjectsParseStep(entries: seq<(string, Node)>, prefixes: PrefixTable, acc: Resources, next: Resources)
    requires |entries| > 0 && In("subject", entries[0].1).Success?
    requires next.Keys == if In("subject", entries[0].1).value && entries[0].0 !in acc then acc.Keys + {entries[0].0}
                          else acc.Keys
    ensures SubjectsParse(entries, prefixes, acc) <==>
              EntrySubjectOk(entries, 0, prefixes, acc) && SubjectsParse(entries[1..], prefixes, next)
  {
    var tail := entries[1..];
    forall k | 1 <= k < |entries|
      ensures EntrySubjectOk(entries, k, prefixes, acc) <==> EntrySubjectOk(tail, k - 1, prefixes, next)
    {
      var n := entries[k].0;
      assert tail[k - 1] == entries[k];
      assert forall j | 1 <= j < k :: entries[j] == tail[j - 1];
      if Declares(entries[0], n) {
        assert !FirstDeclaration(entries, k, n);
        assert n in next;
      } else {
        assert FirstDeclaration(entries, k, n) <==> FirstDeclaration(tail, k - 1, n);
        assert n in next <==> n in acc;
      }
    }
    if SubjectsParse(tail, prefixes, next) && EntrySubjectOk(entries, 0, prefixes, acc) {
      forall k | 1 <= k < |entries| ensures EntrySubjectOk(entries, k, prefixes, acc) {
        assert EntrySubjectOk(tail, k - 1, prefixes, next);
      }
    }
    if SubjectsParse(entries, prefixes, acc) {
      forall k | 0 <= k < |tail| ensures EntrySubjectOk(tail, k, prefixes, next) {
        assert EntrySubjectOk(entries, k + 1, prefixes, acc);
      }
    }
  }

  /** Whether the first entry registered its name or was skipped, what the remaining entries
      register extends to all of them. */
  lemma SubjectsOfStep(entries: seq<(string, Node)>, prefixes: PrefixTable, acc: Resources, next: Resources,
                       res: Resources)
    requires |entries| > 0 && In("subject", entries[0].1).Success?
    requires In("subject", entries[0].1).value && entries[0].0 !in acc ==>
               && entries[0].0 in next && next == acc[entries[0].0 := next[entries[0].0]] && next[entries[0].0].IRI?
               && SubjectCompilesTo(entries[0].1, prefixes, next[entries[0].0])
    requires !(In("subject", entries[0].1).value && entries[0].0 !in acc) ==> next == acc
    requires next.Keys <= res.Keys && forall k | k in next :: res[k] == next[k]
    requires forall k | k in res && k !in next :: res[k].IRI?
    requires SubjectsFromFirst(entries[1..], prefixes, next, res)
    requires forall i | 0 <= i < |entries[1..]| :: Registered(entries[1..][i], res)
    ensures acc.Keys <= res.Keys && forall k | k in acc :: res[k] == acc[k]
    ensures forall k | k in res && k !in acc :: res[k].IRI?
    ensures SubjectsFromFirst(entries, prefixes, acc, res)
    ensures forall i | 0 <= i < |entries| :: Registered(entries[i], res)
  {
    forall k | k in res && k !in acc
      ensures exists i :: FirstDeclaration(entries, i, k) && SubjectCompilesTo(entries[i].1, prefixes, res[k])
    {
      if k in next {
        assert FirstDeclaration(entries, 0, k);
      } else {
        var i :| FirstDeclaration(entries[1..], i, k) && SubjectCompilesTo(entries[1..][i].1, prefixes, res[k]);
        assert !Declares(entries[0], k);
        assert forall j | 1 <= j < i + 1 :: entries[j] == entries[1..][j - 1];
        assert FirstDeclaration(entries, i + 1, k);
      }
    }
    forall i | 0 <= i < |entries|
      ensures Registered(entries[i], res)
    {
      if i > 0 {
        assert entries[i] == entries[1..][i - 1];
      }
    }
  }

  /** The entries of the document's `mappings` (or `mapping`) section. */
  function MappingEntries(doc: Node): (r: Result<seq<(string, Node)>, PyError>)
    ensures doc.Dict? && GetKeys(doc, MAPPING_KEYS).value.Dict? ==> r == Success(GetKeys(doc, MAPPING_KEYS).value.entries)
  {
    var section :- GetKeys(doc, MAPPING_KEYS);
    Items(section)
  }

  /** `parse_subjects`: the resource table, every subject an IRI, one per entry declaring a subject. */
  function ParseSubjects(doc: Node, prefixes: PrefixTable): (r: Result<Resources, PyError>)
    ensures r.Success? ==> MappingEntries(doc).Success?
    ensures r.Success? ==> forall k | k in r.value :: r.value[k].IRI?
    ensures r.Success? ==>
              var entries := MappingEntries(doc).value;
              forall k :: k in r.value <==> exists i | 0 <= i < |entries| :: Declares(entries[i], k)
    ensures r.Success? ==> SubjectsFromFirst(MappingEntries(doc).value, prefixes, map[], r.value)
    ensures r.Success? <==> MappingEntries(doc).Success? && SubjectsParse(MappingEntries(doc).value, prefixes, map[])
  {
    var entries :- MappingEntries(doc);
    SubjectsOf(entries, prefixes, map[])
  }

  /** `parse_predicate_objects`: the rules of every entry that has a subject. */
  function ParsePredicateObjects(doc: Node, resources: Resources, prefixes: PrefixTable, env: Env)
    : (r: Result<set<Triple>, PyError>)
    ensures MappingEntries(doc).Failure? ==> r == Failure(MappingEntries(doc).error)
    ensures r.Success? ==> MappingEntries(doc).Success?
    ensures r.Success? <==>
              MappingEntries(doc).Success? && EntriesCompile(MappingEntries(doc).value, resources, prefixes, env)
    ensures r.Success? ==>
              var entries := MappingEntries(doc).value;
              forall t :: t in r.value <==> exists i | 0 <= i < |entries| :: EntryContributes(entries[i], resources, prefixes, env, t)
    ensures r.Success? ==> forall t | t in r.value :: t.s in resources.Values && t.p.IRI? && LiteralTagsExclusive(t.o, resources)
  {
    var entries :- MappingEntries(doc);
    EntriesTriples(entries, resources, prefixes, env)
  }

  /** The three phases succeed and some mapping entry contributes `t` under the compiled
      prefixes and subjects. */
  ghost predicate DocumentAdds(doc: Node, env: Env, t: Triple) {
    && ParsePrefixes(doc).Success?
    && ParseSubjects(doc, ParsePrefixes(doc).value).Success?
    && MappingEntries(doc).Success?
    && var entries := MappingEntries(doc).value;
       exists i | 0 <= i < |entries| ::
         EntryContributes(entries[i], ParseSubjects(doc, ParsePrefixes(doc).value).value, ParsePrefixes(doc).value, env, t)
  }

  /** `parse_to_rdf_mapping`: prefixes, then subjects, then rules; any Python error aborts the
      whole compilation. Every compiled triple has an IRI subject and predicate, and no
      literal object carries both a language and a datatype. */
  function ParseToRdfMapping(doc: Node, env: Env): (r: Result<set<Triple>, PyError>)
    ensures ParsePrefixes(doc).Failure? ==> r == Failure(ParsePrefixes(doc).error)
    ensures ParsePrefixes(doc).Success? && ParseSubjects(doc, ParsePrefixes(doc).value).Failure? ==>
              r == Failure(ParseSubjects(doc, ParsePrefixes(doc).value).error)
    ensures r.Success? <==>
              && ParsePrefixes(doc).Success?
              && ParseSubjects(doc, ParsePrefixes(doc).value).Success?
              && ParsePredicateObjects(doc, ParseSubjects(doc, ParsePrefixes(doc).value).value, ParsePrefixes(doc).value, env).Success?
    ensures r.Success? ==> forall t :: t in r.value <==> DocumentAdds(doc, env, t)
    ensures r.Success? ==> forall t | t in r.value :: t.s.IRI? && t.p.IRI? && TagsExclusive(t.o)
  {
    var prefixes :- ParsePrefixes(doc);
    var resources :- ParseSubjects(doc, prefixes);
    ParsePredicateObjects(doc, resources, prefixes, env)
  }

  /** The subject of every compiled triple is the compiled `subject` template of the first
      entry that declares some name. */
  lemma CompiledSubjectIsFirstDeclared(doc: Node, env: Env, t: Triple)
    requires ParseToRdfMapping(doc, env).Success? && t in ParseToRdfMapping(doc, env).value
    ensures exists k, i :: FirstDeclaration(MappingEntries(doc).value, i, k)
                           && SubjectCompilesTo(MappingEntries(doc).value[i].1, ParsePrefixes(doc).value, t.s)
  {
    assert DocumentAdds(doc, env, t);
    var prefixes := ParsePrefixes(doc).value;
    ContributedSubject(MappingEntries(doc).value, ParseSubjects(doc, prefixes).value, prefixes, env, t);
  }

  /** A triple some entry contributes has, as subject, the compiled template of the first
      entry declaring that entry's name. */
  lemma ContributedSubject(entries: seq<(string, Node)>, resources: Resources, prefixes: PrefixTable, env: Env,
                           t: Triple)
    requires exists e | 0 <= e < |entries| :: EntryContributes(entries[e], resources, prefixes, env, t)
    requires SubjectsFromFirst(entries, prefixes, map[], resources)
    ensures exists k, i :: FirstDeclaration(entries, i, k) && SubjectCompilesTo(entries[i].1, prefixes, t.s)
  {
    var e :| 0 <= e < |entries| && EntryContributes(entries[e], resources, prefixes, env, t);
    var k := entries[e].0;
    EntryAddsSubject(resources[k], entries[e].1, resources, prefixes, env, t);
    var none: Resources := map[];
    assert k in resources && k !in none;
    var i :| FirstDeclaration(entries, i, k) && SubjectCompilesTo(entries[i].1, prefixes, resources[k]);
  }

  /** A triple an entry body adds has that entry's subject. */
  lemma EntryAddsSubject(subject: Term, body: Node, resources: Resources, prefixes: PrefixTable, env: Env, t: Triple)
    requires EntryAdds(subject, body, resources, prefixes, env, t)
    ensures t.s == subject
  {
    var groups := Iterate(GetKeys(body, PREDICATE_OBJECT_KEYS).value).value;
    var j :| 0 <= j < |groups| && GroupAdds(subject, groups[j], resources, prefixes, env, t);
    var rule := Uniformize(groups[j], env).value;
    var i :| 0 <= i < |rule[0]| && PredicateAdds(subject, rule[0][i], rule[1], resources, prefixes, env, t);
    var p := ParseUriTemplate(rule[0][i], prefixes).value;
    var m :| 0 <= m < |rule[1]| && ObjectAdds(subject, p, rule[1][m], resources, prefixes, env, t);
  }

  /** A rule group that uniformizes to nothing (for instance a dict-form group without
      objects) inside an entry with a subject makes the whole compilation fail. */
  lemma EmptyRuleAbortsCompilation(doc: Node, env: Env, i: nat, j: nat)
    ensures && ParsePrefixes(doc).Success?
            && ParseSubjects(doc, ParsePrefixes(doc).value).Success?
            && MappingEntries(doc).Success? && i < |MappingEntries(doc).value|
            && MappingEntries(doc).value[i].0 in ParseSubjects(doc, ParsePrefixes(doc).value).value
            && GetKeys(MappingEntries(doc).value[i].1, PREDICATE_OBJECT_KEYS).Success?
            && Iterate(GetKeys(MappingEntries(doc).value[i].1, PREDICATE_OBJECT_KEYS).value).Success?
            && j < |Iterate(GetKeys(MappingEntries(doc).value[i].1, PREDICATE_OBJECT_KEYS).value).value|
            && Uniformize(Iterate(GetKeys(MappingEntries(doc).value[i].1, PREDICATE_OBJECT_KEYS).value).value[j], env)
               == Success([])
            ==> ParseToRdfMapping(doc, env).Failure?
  {
  }
}

=== FILE: host.dfy ===
/** The library calls the mapper makes whose definitions are not part of this model. Every
    property in the model holds for every choice of these functions. */
module Host {
  import opened Yaml
  import opened Rdf

  datatype Env = Env(
    /** `is_valid_uri`: the `url_regex` match (scheme, host or IP, optional port and path). */
    matchesUrl: string -> bool,
    /** rdflib's `_is_valid_uri`, the low-level IRI grammar check. */
    rdflibValid: string -> bool,
    /** `urllib.parse.quote` (percent-encoding). */
    quote: string -> string,
    /** `urllib.parse.unquote` (percent-decoding). */
    unquote: string -> string,
    /** Python's `str()` of a list or a dict. */
    repr: Node -> string,
    /** `bool()` of an rdflib literal, which looks at the literal's parsed value. */
    literalTruthy: Term -> bool)

  /** `bool(term)` for a term the mapper produced: an IRI is true when non-empty. */
  predicate TermTruthy(t: Term, env: Env) {
    if t.IRI? then |t.iri| > 0 else env.literalTruthy(t)
  }
}

=== FILE: ontology.dfy ===
/** The ontology exporter: the concepts a compiled mapping uses (its classes and its
    predicates), and the description of each concept taken from the vocabulary published at
    the concept's own IRI. Fetching and parsing a remote vocabulary is a parameter. */
module Ontology {
  import opened Wrappers
  import opened Text
  import opened Yaml
  import opened Rdf
  import opened Host
  import opened Compiler

  /** The RDF serialisation a vocabulary is parsed as. */
  datatype Syntax = Turtle | RdfXml

  /** Retrieve and parse the document at a location; None when anything goes wrong (an
      unreachable host, a parse error, ...). */
  type Fetch = (string, Syntax) -> Option<set<Triple>>

  /** Marker of the vocabularies served as Turtle files next to the concept IRI. */
  const SCHEMA_ORG := "schema.org"

  /** `get_classes_properties`: the classes are the objects of `rdf:type` triples, the
      properties every predicate in use. */
  method GetClassesProperties(mapping: set<Triple>) returns (classes: set<Term>, properties: set<Term>)
    ensures forall c :: c in classes <==> exists t | t in mapping :: t.p == RDF_TYPE && t.o == c
    ensures forall p :: p in properties <==> exists t | t in mapping :: t.p == p
    ensures classes != {} ==> RDF_TYPE in properties
  {
    classes := {};
    var rest := mapping;
    while rest != {}
      invariant rest <= mapping
      invariant forall c :: c in classes <==> exists t | t in mapping - rest :: t.p == RDF_TYPE && t.o == c
      decreases rest
    {
      var t :| t in rest;
      if t.p == RDF_TYPE {
        classes := classes + {t.o};
      }
      rest := rest - {t};
    }
    properties := {};
    rest := mapping;
    while rest != {}
      invariant rest <= mapping
      invariant forall p :: p in properties <==> exists t | t in mapping - rest :: t.p == p
      decreases rest
    {
      var t :| t in rest;
      properties := properties + {t.p};
      rest := rest - {t};
    }
    if classes != {} {
      var c :| c in classes;
      var t :| t in mapping && t.p == RDF_TYPE && t.o == c;
      assert t.p in properties;
    }
  }

  /** Where `get_rdf_graph` looks for a concept's description, and in which syntax: a
      schema.org concept is read as Turtle from `<concept>.ttl`, anything else as RDF/XML from
      the concept IRI itself. */
  function Source(concept: string): (r: (string, Syntax))
    ensures r.1 == Turtle <==> IsInfix(SCHEMA_ORG, concept)
    ensures r.1 == Turtle ==> r.0 == concept + ".ttl"
    ensures r.1 == RdfXml ==> r.0 == concept
  {
    if IsInfix(SCHEMA_ORG, concept) then (concept + ".ttl", Turtle) else (concept, RdfXml)
  }

  /** `get_rdf_graph`: the parsed vocabulary, or the empty graph when retrieval fails. */
  function GetRdfGraph(concept: string, fetch: Fetch): (r: set<Triple>)
    ensures fetch(Source(concept).0, Source(concept).1).None? ==> r == {}
    ensures fetch(Source(concept).0, Source(concept).1).Some? ==> r == fetch(Source(concept).0, Source(concept).1).value
  {
    fetch(Source(concept).0, Source(concept).1).GetOr({})
  }

  /** The schema.org IRIs are looked up as Turtle files. */
  lemma SchemaOrgIsReadAsTurtle(name: string)
    ensures Source("http://schema.org/" + name) == ("http://schema.org/" + name + ".ttl", Turtle)
  {
    var iri := "http://schema.org/" + name;
    assert iri[7..7 + |SCHEMA_ORG|] == SCHEMA_ORG;
    assert OccursAt(SCHEMA_ORG, iri, 7);
  }

  /** `get_ontology`: for every concept, the triples of its vocabulary that describe it. */
  method GetOntology(classes: set<Term>, properties: set<Term>, fetch: Fetch) returns (r: set<Triple>)
    ensures forall t :: t in r <==> t.s in classes + properties && t in GetRdfGraph(Lexical(t.s), fetch)
  {
    var concepts := classes + properties;
    r := {};
    var rest := concepts;
    while rest != {}
      invariant rest <= concepts
      invariant forall t :: t in r <==> t.s in concepts - rest && t in GetRdfGraph(Lexical(t.s), fetch)
      decreases rest
    {
      var concept :| concept in rest;
      var graph := GetRdfGraph(Lexical(concept), fetch);
      var about := set t | t in graph && t.s == concept;
      r := r + about;
      rest := rest - {concept};
    }
  }

  /** The export pipeline: compile the mapping document, collect its concepts, and describe
      them. Compilation errors abort the export. */
  method ExportOntology(doc: Node, env: Env, fetch: Fetch) returns (r: Result<set<Triple>, PyError>)
    ensures ParseToRdfMapping(doc, env).Failure? <==> r.Failure?
    ensures r.Success? ==>
              forall t :: t in r.value <==>
                && t in GetRdfGraph(Lexical(t.s), fetch)
                && exists m | m in ParseToRdfMapping(doc, env).value :: t.s == m.p || (m.p == RDF_TYPE && t.s == m.o)
    ensures r.Success? ==>
              forall t | t in r.value && t.s.Literal? ::
                exists m | m in ParseToRdfMapping(doc, env).value :: m.p == RDF_TYPE && t.s == m.o
  {
    var mapping := ParseToRdfMapping(doc, env);
    if mapping.Failure? {
      return Failure(mapping.error);
    }
    var classes, properties := GetClassesProperties(mapping.value);
    var ontology := GetOntology(classes, properties, fetch);
    DescribedConcepts(mapping.value, classes, properties, ontology, fetch);
    r := Success(ontology);
  }

  /** What describing the classes and properties of `mapping` yields: each triple is about a
      predicate of the mapping or an object it types, and comes from that concept's graph. */
  lemma DescribedConcepts(mapping: set<Triple>, classes: set<Term>, properties: set<Term>, ontology: set<Triple>,
                          fetch: Fetch)
    requires forall m | m in mapping :: m.p.IRI?
    requires forall c :: c in classes <==> exists t | t in mapping :: t.p == RDF_TYPE && t.o == c
    requires forall p :: p in properties <==> exists t | t in mapping :: t.p == p
    requires forall t :: t in ontology <==> t.s in classes + properties && t in GetRdfGraph(Lexical(t.s), fetch)
    ensures forall t :: t in ontology <==>
              && t in GetRdfGraph(Lexical(t.s), fetch)
              && exists m | m in mapping :: t.s == m.p || (m.p == RDF_TYPE && t.s == m.o)
    ensures forall t | t in ontology && t.s.Literal? :: exists m | m in mapping :: m.p == RDF_TYPE && t.s == m.o
  {
    forall t: Triple | t in GetRdfGraph(Lexical(t.s), fetch) && exists m | m in mapping :: t.s == m.p || (m.p == RDF_TYPE && t.s == m.o)
      ensures t in ontology
    {
      var m :| m in mapping && (t.s == m.p || (m.p == RDF_TYPE && t.s == m.o));
      if t.s == m.p {
        assert t.s in properties;
      } else {
        assert t.s in classes;
      }
    }
    forall t | t in ontology && t.s.Literal?
      ensures exists m | m in mapping :: m.p == RDF_TYPE && t.s == m.o
    {
      assert t.s in classes;
    }
  }
}

=== FILE: rdf.dfy ===
/** RDF terms and triples as the mapper builds them, and the vocabulary it hard-codes. */
module Rdf {
  import opened Wrappers

  /** An IRI, or a literal carrying an optional language tag or an optional datatype IRI. */
  datatype Term =
    | IRI(iri: string)
    | Literal(text: string, lang: Option<string>, dtype: Option<string>)

  datatype Triple = Triple(s: Term, p: Term, o: Term)

  const RDF_NS := "http://www.w3.org/1999/02/22-rdf-syntax-ns#"
  const RDFS_NS := "http://www.w3.org/2000/01/rdf-schema#"
  const OWL_NS := "http://www.w3.org/2002/07/owl#"
  const XSD_NS := "http://www.w3.org/2001/XMLSchema#"

  /** `rdf:type`, the predicate the shorthand `a` stands for. */
  const RDF_TYPE := IRI(RDF_NS + "type")

  /** `str(term)`: the IRI itself, or a literal's lexical form. */
  function Lexical(t: Term): string {
    if t.IRI? then t.iri else t.text
  }

  /** A literal never carries both a language tag and a datatype, and a tag it carries is
      non-empty. */
  predicate TagsExclusive(t: Term) {
    t.Literal? ==> !(t.lang.Some? && t.dtype.Some?) && (t.lang.Some? ==> |t.lang.value| > 0)
  }
}

=== FILE: references.dfy ===
/** Extraction of `$(field)` reference placeholders from a template, with the semantics of
    a non-greedy `\$\(.*?\)` regular-expression search (`.` does not match a newline). */
module References {
  import opened Wrappers
  import opened Text

  /** The placeholder that refers to the record field `name`. */
  function Ref(name: string): string {
    "$(" + name + ")"
  }

  /** `t` is exactly one placeholder: `$(`, then characters other than `)` and newline, then `)`. */
  predicate IsPlaceholder(t: string) {
    && |t| >= 3
    && t[0] == '$' && t[1] == '('
    && t[|t| - 1] == ')'
    && forall k | 2 <= k < |t| - 1 :: t[k] != ')' && t[k] != '\n'
  }

  /** Some block of `s` is a placeholder. */
  ghost predicate ContainsPlaceholder(s: string) {
    exists i, j | 0 <= i <= j <= |s| :: IsPlaceholder(s[i..j])
  }

  /** No `)` and no newline in `s[k..q]`. */
  predicate Clean(s: string, k: nat, q: nat)
    requires k <= q <= |s|
  {
    forall j | k <= j < q :: s[j] != ')' && s[j] != '\n'
  }

  /** Index of the `)` that closes a placeholder whose body starts at `k`: the first `)` at or
      after `k`, provided no newline comes before it. */
  function CloseParen(s: string, k: nat): (r: Option<nat>)
    requires k <= |s|
    decreases |s| - k
    ensures r.Some? ==> k <= r.value < |s| && s[r.value] == ')' && Clean(s, k, r.value)
    ensures forall q | k <= q < |s| && s[q] == ')' && Clean(s, k, q) :: r == Some(q)
  {
    if k == |s| then None
    else if s[k] == ')' then Some(k)
    else if s[k] == '\n' then None
    else CloseParen(s, k + 1)
  }

  /** `re.findall(r'(\$\(.*?\))', s)`: the placeholders of `s`, left to right, non-overlapping,
      duplicates kept. */
  function FindReferences(s: string): (r: seq<string>)
    decreases |s|
    ensures forall i | 0 <= i < |r| :: IsPlaceholder(r[i]) && IsInfix(r[i], s)
  {
    if |s| < 2 then []
    else if s[0] == '$' && s[1] == '(' && CloseParen(s, 2).Some? then
      var q := CloseParen(s, 2).value;
      var rest := FindReferences(s[q + 1..]);
      forall i | 0 <= i < |rest| ensures IsInfix(rest[i], s) {
        InfixOfSuffix(rest[i], s, q + 1);
      }
      assert OccursAt(s[..q + 1], s, 0);
      [s[..q + 1]] + rest
    else
      var rest := FindReferences(s[1..]);
      forall i | 0 <= i < |rest| ensures IsInfix(rest[i], s) {
        InfixOfSuffix(rest[i], s, 1);
      }
      rest
  }

  /** A placeholder found by the scan is a block of the text. */
  lemma FoundIsContained(s: string)
    ensures FindReferences(s) != [] ==> ContainsPlaceholder(s)
  {
    var r := FindReferences(s);
    if r != [] {
      var a :| 0 <= a <= |s| - |r[0]| && OccursAt(r[0], s, a);
      assert IsPlaceholder(s[a..a + |r[0]|]);
    }
  }

  /** A placeholder starting at the front of the text is what the scan finds first. */
  lemma LeadingBlockIsFound(s: string, j: nat)
    requires 3 <= j <= |s| && IsPlaceholder(s[..j])
    ensures FindReferences(s) != []
  {
    var t := s[..j];
    assert s[0] == t[0] && s[1] == t[1] && s[j - 1] == t[|t| - 1];
    assert Clean(s, 2, j - 1) by {
      forall k | 2 <= k < j - 1 ensures s[k] != ')' && s[k] != '\n' {
        assert s[k] == t[k];
      }
    }
    assert CloseParen(s, 2).Some?;
  }

  /** Any block of the text that is a placeholder makes the scan find something. */
  lemma {:induction false} BlockIsFound(s: string, i: nat, j: nat)
    requires i <= j <= |s|
    ensures IsPlaceholder(s[i..j]) ==> FindReferences(s) != []
    decreases i
  {
    if IsPlaceholder(s[i..j]) {
      if i == 0 {
        assert s[..j] == s[i..j];
        LeadingBlockIsFound(s, j);
      } else if !(s[0] == '$' && s[1] == '(' && CloseParen(s, 2).Some?) {
        assert s[1..][i - 1..j - 1] == s[i..j];
        BlockIsFound(s[1..], i - 1, j - 1);
        assert FindReferences(s) == FindReferences(s[1..]);
      }
    }
  }

  /** A template is a constant (no references are found) exactly when no block of it is a
      placeholder. */
  lemma ConstantIffNoPlaceholder(s: string)
    ensures FindReferences(s) == [] <==> !ContainsPlaceholder(s)
  {
    FoundIsContained(s);
    forall i, j | 0 <= i <= j <= |s|
      ensures IsPlaceholder(s[i..j]) ==> FindReferences(s) != []
    {
      BlockIsFound(s, i, j);
    }
  }

  /** Text without a `$` before a template does not change what is found in it. */
  lemma {:induction false} FindSkipsPrefix(pre: string, x: string)
    requires Lacks(pre, '$')
    ensures FindReferences(pre + x) == FindReferences(x)
    decreases |pre|
  {
    if |pre| > 0 {
      var s := pre + x;
      if |s| >= 2 {
        assert s[0] == pre[0];
        assert s[1..] == pre[1..] + x;
        FindSkipsPrefix(pre[1..], x);
      } else {
        assert |x| < 2;
      }
    } else {
      assert pre + x == x;
    }
  }

  /** A placeholder at the front of a template is found first, whole. */
  lemma FindLeadingPlaceholder(ref: string, post: string)
    requires IsPlaceholder(ref)
    ensures FindReferences(ref + post) == [ref] + FindReferences(post)
  {
    var s := ref + post;
    assert Clean(s, 2, |ref| - 1) by {
      forall k | 2 <= k < |ref| - 1 ensures s[k] != ')' && s[k] != '\n' {
        assert s[k] == ref[k];
      }
    }
    assert s[|ref| - 1] == ')';
    assert CloseParen(s, 2) == Some(|ref| - 1);
    assert s[..|ref|] == ref;
    assert s[|ref|..] == post;
  }

  /** A template consisting of one placeholder with `$`-free text around it yields exactly
      that placeholder. */
  lemma FindOnePlaceholder(pre: string, ref: string, post: string)
    requires Lacks(pre, '$') && Lacks(post, '$') && IsPlaceholder(ref)
    ensures FindReferences(pre + ref + post) == [ref]
  {
    assert pre + ref + post == pre + (ref + post);
    FindSkipsPrefix(pre, ref + post);
    FindLeadingPlaceholder(ref, post);
    FindSkipsPrefix(post, []);
    assert post + [] == post;
  }

  /** Distinct field names give distinct placeholders. */
  lemma RefInjective(a: string, b: string)
    ensures Ref(a) == Ref(b) ==> a == b
  {
    if Ref(a) == Ref(b) {
      assert Ref(a)[2..|Ref(a)| - 1] == a;
      assert Ref(b)[2..|Ref(b)| - 1] == b;
    }
  }
}

=== FILE: scenarios.dfy ===
/** A single-entry mapping document traced through both phases: prefix `ex`, one entry `item`
    whose subject template is `ex:$(id)` and whose one rule gives it type `ex:Thing`. */
module Scenarios {
  import opened Wrappers
  import opened Text
  import opened References
  import opened Yaml
  import opened Rdf
  import opened Host
  import opened Compiler
  import opened Transformer

  const NS := "http://ex.org/"
  const SUBJECT_TEMPLATE := "ex:$(id)"
  const THING := "ex:Thing"

  /** The rule `{p: a, o: ["ex:Thing"]}`. */
  const RULE_GROUP: Node := Dict([("p", Str("a")), ("o", List([Str(THING)]))])

  /** The body of entry `item`: subject `ex:$(id)` and the one rule group. */
  const ITEM_BODY: Node := Dict([("subject", Str(SUBJECT_TEMPLATE)), ("po", List([RULE_GROUP]))])

  /** `prefixes: {ex: "http://ex.org/"}` and the single entry `item`. */
  const EXAMPLE_DOC: Node :=
    Dict([("prefixes", Dict([("ex", Str(NS))])), ("mappings", Dict([("item", ITEM_BODY)]))])

  /** The prefix table the example compiles against: the built-ins plus `ex`. */
  const EXAMPLE_PREFIXES: PrefixTable := BUILTIN_PREFIXES["ex" := Str(NS)]

  /** The compiled subject template: the namespace replaced `ex`, and the colon stayed. */
  const COMPILED_SUBJECT := IRI(NS + ":$(id)")

  /** The resource table: the one entry and its compiled subject. */
  const EXAMPLE_RESOURCES: Resources := map["item" := COMPILED_SUBJECT]

  /** The rule group uniformized: predicate `a`, one object spec `["ex:Thing"]`. */
  const EXAMPLE_RULE: seq<seq<Node>> := [[Str("a")], [List([Str(THING)])]]

  /** The compiled rule: `ex:Thing` is not URL-like and names no entry, so it is a literal. */
  const EXAMPLE_TRIPLE := Triple(COMPILED_SUBJECT, RDF_TYPE, Literal(THING, None, None))

  /** A needle whose first character does not occur in `s` does not occur in `s`. */
  lemma FirstCharAbsent(needle: string, s: string)
    requires |needle| > 0 && Lacks(s, needle[0])
    ensures !IsInfix(needle, s)
  {
    forall i | 0 <= i <= |s| - |needle|
      ensures !OccursAt(needle, s, i)
    {
      assert s[i] != needle[0];
    }
  }

  lemma ExamplePrefixes()
    ensures ParsePrefixes(EXAMPLE_DOC) == Success(EXAMPLE_PREFIXES)
  {
    var declared := [("ex", Str(NS))];
    assert Lookup(EXAMPLE_DOC.entries, "prefixes") == Some(Dict(declared));
    assert AddAbsent(BUILTIN_PREFIXES, declared) == EXAMPLE_PREFIXES;
  }

  lemma ExampleSubject()
    ensures ParseUriTemplate(Str(SUBJECT_TEMPLATE), EXAMPLE_PREFIXES) == Success(COMPILED_SUBJECT)
  {
    ExamplePrefixName();
    assert "ex" + ":" + "$(id)" == SUBJECT_TEMPLATE;
    assert NS + ":" + "$(id)" == NS + ":$(id)";
    PrefixExpansionKeepsColon("ex", "$(id)", NS, EXAMPLE_PREFIXES);
  }

  lemma ExamplePrefixName()
    ensures |"ex"| > 0 && Lacks("ex", ':') && !IsInfix("ex", "$(id)")
    ensures "ex" in EXAMPLE_PREFIXES && EXAMPLE_PREFIXES["ex"] == Str(NS)
  {
    assert Lacks("$(id)", 'e');
    FirstCharAbsent("ex", "$(id)");
  }

  lemma ExampleEntries()
    ensures MappingEntries(EXAMPLE_DOC) == Success([("item", ITEM_BODY)])
  {
    assert MAPPING_KEYS[0] == "mappings";
    assert Lookup(EXAMPLE_DOC.entries, "mappings") == Some(Dict([("item", ITEM_BODY)]));
    assert GetKeys(EXAMPLE_DOC, MAPPING_KEYS) == Success(Dict([("item", ITEM_BODY)]));
  }

  lemma ExampleSubjects()
    ensures ParseSubjects(EXAMPLE_DOC, EXAMPLE_PREFIXES) == Success(EXAMPLE_RESOURCES)
  {
    ExampleEntries();
    assert Lookup(ITEM_BODY.entries, "subject") == Some(Str(SUBJECT_TEMPLATE));
    assert In("subject", ITEM_BODY) == Success(true);
    assert Index(ITEM_BODY, "subject") == Success(Str(SUBJECT_TEMPLATE));
    ExampleSubject();
    SingleSubject("item", ITEM_BODY, Str(SUBJECT_TEMPLATE), EXAMPLE_PREFIXES, COMPILED_SUBJECT);
  }

  /** One entry declaring a subject registers its compiled template under its name. */
  lemma SingleSubject(name: string, body: Node, template: Node, prefixes: PrefixTable, subject: Term)
    requires In("subject", body) == Success(true) && Index(body, "subject") == Success(template)
    requires ParseUriTemplate(template, prefixes) == Success(subject)
    ensures SubjectsOf([(name, body)], prefixes, map[]) == Success(map[name := subject])
  {
    assert [(name, body)][1..] == [];
    assert SubjectsOf([], prefixes, map[name := subject]) == Success(map[name := subject]);
  }

  lemma RulePredicates()
    ensures GetKeys(RULE_GROUP, PREDICATE_KEYS) == Success(Str("a"))
  {
    assert PREDICATE_KEYS[0] == "predicates" && PREDICATE_KEYS[1] == "predicate" && PREDICATE_KEYS[2] == "p";
    assert Lookup(RULE_GROUP.entries, "predicates").None? && Lookup(RULE_GROUP.entries, "predicate").None?;
    assert Lookup(RULE_GROUP.entries, "p") == Some(Str("a"));
  }

  lemma RuleObjects()
    ensures GetKeys(RULE_GROUP, OBJECT_KEYS) == Success(List([Str(THING)]))
  {
    assert OBJECT_KEYS[0] == "objects" && OBJECT_KEYS[1] == "object" && OBJECT_KEYS[2] == "o";
    assert Lookup(RULE_GROUP.entries, "objects").None? && Lookup(RULE_GROUP.entries, "object").None?;
    assert Lookup(RULE_GROUP.entries, "o") == Some(List([Str(THING)]));
  }

  lemma ThingFlattens(env: Env)
    ensures FlattenObjects([Str(THING)], env) == [Str(THING)]
  {
    assert [Str(THING)][1..] == [];
    assert FlattenOne(Str(THING), env) + [] == [Str(THING)];
  }

  lemma ExampleUniformize(env: Env)
    ensures Uniformize(RULE_GROUP, env) == Success(EXAMPLE_RULE)
  {
    RulePredicates();
    RuleObjects();
    ThingFlattens(env);
    var objects := List([Str(THING)]);
    assert Truthy(Str("a")) && Truthy(objects) && objects.List?;
    assert [List(FlattenObjects(objects.items, env))] == [objects];
    assert DictRule(Str("a"), objects, env) == [AsList(Str("a")), [objects]];
  }

  lemma ExampleObject(env: Env)
    requires !env.matchesUrl(THING)
    ensures ParseObject(COMPILED_SUBJECT, RDF_TYPE, List([Str(THING)]), EXAMPLE_RESOURCES, EXAMPLE_PREFIXES, env)
            == Success({EXAMPLE_TRIPLE})
  {
    assert THING !in EXAMPLE_RESOURCES;
    assert [Str(THING)][1..] == [];
  }

  lemma ItemRuleGroups()
    ensures GetKeys(ITEM_BODY, PREDICATE_OBJECT_KEYS) == Success(List([RULE_GROUP]))
  {
    assert PREDICATE_OBJECT_KEYS[0] == "predicateobjects" && PREDICATE_OBJECT_KEYS[1] == "predicateobject";
    assert PREDICATE_OBJECT_KEYS[2] == "po";
    assert Lookup(ITEM_BODY.entries, "predicateobjects").None? && Lookup(ITEM_BODY.entries, "predicateobject").None?;
    assert Lookup(ITEM_BODY.entries, "po") == Some(List([RULE_GROUP]));
  }

  lemma ExampleObjects(env: Env)
    requires !env.matchesUrl(THING)
    ensures ObjectsTriples(COMPILED_SUBJECT, RDF_TYPE, EXAMPLE_RULE[1], EXAMPLE_RESOURCES, EXAMPLE_PREFIXES, env)
            == Success({EXAMPLE_TRIPLE})
  {
    ExampleObject(env);
    assert EXAMPLE_RULE[1] == [List([Str(THING)])];
    assert [List([Str(THING)])][1..] == [];
    assert {EXAMPLE_TRIPLE} + {} == {EXAMPLE_TRIPLE};
  }

  lemma ExamplePredicates(env: Env)
    requires !env.matchesUrl(THING)
    ensures PredicatesTriples(COMPILED_SUBJECT, EXAMPLE_RULE[0], EXAMPLE_RULE, EXAMPLE_RESOURCES, EXAMPLE_PREFIXES, env)
            == Success({EXAMPLE_TRIPLE})
  {
    ExampleObjects(env);
    assert EXAMPLE_RULE[0] == [Str("a")];
    assert [Str("a")][1..] == [];
    assert {EXAMPLE_TRIPLE} + {} == {EXAMPLE_TRIPLE};
  }

  lemma ExampleGroups(env: Env)
    requires !env.matchesUrl(THING)
    ensures GroupsTriples(COMPILED_SUBJECT, [RULE_GROUP], EXAMPLE_RESOURCES, EXAMPLE_PREFIXES, env)
            == Success({EXAMPLE_TRIPLE})
  {
    ExampleUniformize(env);
    ExamplePredicates(env);
    assert RuleTriples(COMPILED_SUBJECT, EXAMPLE_RULE, EXAMPLE_RESOURCES, EXAMPLE_PREFIXES, env) == Success({EXAMPLE_TRIPLE});
    assert [RULE_GROUP][1..] == [];
    assert {EXAMPLE_TRIPLE} + {} == {EXAMPLE_TRIPLE};
  }

  lemma ExampleEntry(env: Env)
    requires !env.matchesUrl(THING)
    ensures EntryTriples(COMPILED_SUBJECT, ITEM_BODY, EXAMPLE_RESOURCES, EXAMPLE_PREFIXES, env) == Success({EXAMPLE_TRIPLE})
  {
    ItemRuleGroups();
    ExampleGroups(env);
  }

  /** The declared prefix name `ex` is the text before the colon, so the subject template
      expands to `http://ex.org/:$(id)` with the colon kept; `ex:Thing` is not a URL and names no
      entry, so it compiles to a plain literal rather than to the IRI `http://ex.org/Thing`. */
  lemma ExampleCompilesWithColonKept(env: Env)
    requires !env.matchesUrl(THING)
    ensures ParseToRdfMapping(EXAMPLE_DOC, env)
            == Success({Triple(IRI("http://ex.org/:$(id)"), RDF_TYPE, Literal("ex:Thing", None, None))})
  {
    assert NS + ":$(id)" == "http://ex.org/:$(id)";
    ExamplePrefixes();
    ExampleSubjects();
    ExampleEntries();
    ExampleRules(env);
  }

  lemma ExampleRules(env: Env)
    requires !env.matchesUrl(THING)
    ensures EntriesTriples([("item", ITEM_BODY)], EXAMPLE_RESOURCES, EXAMPLE_PREFIXES, env) == Success({EXAMPLE_TRIPLE})
  {
    ExampleEntry(env);
    SingleEntryTriples(("item", ITEM_BODY), EXAMPLE_RESOURCES, EXAMPLE_PREFIXES, env);
  }

  /** A single entry with a registered subject contributes exactly its own rules. */
  lemma SingleEntryTriples(entry: (string, Node), resources: Resources, prefixes: PrefixTable, env: Env)
    requires entry.0 in resources && EntryTriples(resources[entry.0], entry.1, resources, prefixes, env).Success?
    ensures EntriesTriples([entry], resources, prefixes, env) == EntryTriples(resources[entry.0], entry.1, resources, prefixes, env)
  {
    assert [entry][1..] == [];
    var here := EntryTriples(resources[entry.0], entry.1, resources, prefixes, env).value;
    assert EntriesTriples([], resources, prefixes, env) == Success({});
    assert here + {} == here;
  }

  lemma ThingIsConstant()
    ensures FindReferences(THING) == []
  {
    assert Lacks(THING, '$');
    FindSkipsPrefix(THING, []);
    assert THING + [] == THING;
  }

  /** The constant literal passes through substitution unchanged, whatever the record. */
  lemma ThingIsKept(refs: ReferenceMap, env: Env)
    ensures ReplaceReferences(Literal(THING, None, None), refs, env) == Some(Literal(THING, None, None))
  {
    ThingIsConstant();
    ConstantIffNoPlaceholder(THING);
  }

  lemma ExampleIdBound()
    ensures Bound(ReferenceMapOf([("id", Num(7))]), "$(id)") == Some(Num(7))
  {
    assert Ref("id") == "$(id)";
  }

  lemma SevenText(env: Env)
    ensures ToText(Num(7), env.repr) == "7"
  {
    assert Digits(7) == "7";
  }

  /** `$(id)` is embedded after `http://ex.org/:`, so the value 7 is quoted. */
  lemma ExampleSubjectResolves(env: Env)
    requires env.matchesUrl(NS + ":" + env.quote("7")) && env.rdflibValid(NS + ":" + env.quote("7"))
    ensures ReplaceReferences(COMPILED_SUBJECT, ReferenceMapOf([("id", Num(7))]), env) == Some(IRI(NS + ":" + env.quote("7")))
  {
    var refs := ReferenceMapOf([("id", Num(7))]);
    ExampleIdBound();
    SevenText(env);
    assert Lacks(NS + ":", '$') && IsPlaceholder("$(id)");
    assert NS + ":" + "$(id)" + [] == NS + ":$(id)";
    EmbeddedPlaceholderIsQuoted(NS + ":", "$(id)", [], refs, Num(7), env);
    assert NS + ":" + env.quote("7") + [] == NS + ":" + env.quote("7");
  }

  /** The record `{fields: {id: 7}}` then gives the subject `http://ex.org/:` followed by the
      percent-encoding of `7` (the placeholder is embedded, so the value is quoted), provided the
      result passes both IRI checks and the literal counts as true. */
  lemma ExampleRecordTriple(env: Env)
    requires env.matchesUrl(NS + ":" + env.quote("7")) && env.rdflibValid(NS + ":" + env.quote("7"))
    requires env.literalTruthy(Literal(THING, None, None))
    ensures ResolveTriple(EXAMPLE_TRIPLE, ReferenceMapOf([("id", Num(7))]), env)
            == Some(Triple(IRI(NS + ":" + env.quote("7")), RDF_TYPE, Literal(THING, None, None)))
  {
    ExampleSubjectResolves(env);
    ThingIsKept(ReferenceMapOf([("id", Num(7))]), env);
  }
}

=== FILE: text.dfy ===
/** String operations the mapper relies on, with Python's `str` semantics. */
module Text {

  /** `needle in s` for Python strings: `needle` occurs as a contiguous block of `s`. */
  predicate IsInfix(needle: string, s: string) {
    exists i | 0 <= i <= |s| - |needle| :: OccursAt(needle, s, i)
  }

  /** `needle` occurs in `s` starting at index `i`. */
  predicate OccursAt(needle: string, s: string, i: int) {
    0 <= i && i + |needle| <= |s| && s[i..i + |needle|] == needle
  }

  /** A block of a suffix of `s` is a block of `s`. */
  lemma InfixOfSuffix(needle: string, s: string, q: nat)
    requires q <= |s| && IsInfix(needle, s[q..])
    ensures IsInfix(needle, s)
  {
    var a :| 0 <= a <= |s[q..]| - |needle| && OccursAt(needle, s[q..], a);
    assert s[a + q..a + q + |needle|] == s[q..][a..a + |needle|];
    assert OccursAt(needle, s, a + q);
  }

  /** Regrouping a five-part concatenation around its second part. */
  lemma Regroup(a: string, b: string, c: string, d: string, e: string)
    ensures a + b + c + d + e == a + (b + (c + d + e))
  {
    assert a + b + c + d + e == a + b + (c + d + e);
  }

  /** True when the character `c` does not occur in `s`. */
  predicate Lacks(s: string, c: char) {
    forall k | 0 <= k < |s| :: s[k] != c
  }

  /** `s.replace("", rep)`: `rep` is inserted before every character and at the end. */
  function Interleave(s: string, rep: string): (r: string)
    ensures |r| == |s| + (|s| + 1) * |rep|
  {
    if |s| == 0 then rep else rep + [s[0]] + Interleave(s[1..], rep)
  }

  /** `s.replace(pat, rep)`: every non-overlapping occurrence of `pat`, scanning left to right,
      is replaced by `rep`. */
  function ReplaceAll(s: string, pat: string, rep: string): (r: string)
    ensures |pat| == 0 ==> |r| == |s| + (|s| + 1) * |rep|
    ensures |pat| > 0 && |rep| <= |pat| ==> |r| <= |s|
    ensures |pat| > 0 && |rep| >= |pat| ==> |r| >= |s|
    ensures |pat| > 0 && rep == pat ==> r == s
    decreases |s|
  {
    if |pat| == 0 then Interleave(s, rep)
    else if |s| < |pat| then s
    else if s[..|pat|] == pat then
      assert s == s[..|pat|] + s[|pat|..];
      rep + ReplaceAll(s[|pat|..], pat, rep)
    else
      assert s == [s[0]] + s[1..];
      [s[0]] + ReplaceAll(s[1..], pat, rep)
  }

  /** `s.split(":", 1)[0]`: the text before the first colon, or all of `s` when it has none. */
  function BeforeColon(s: string): (r: string)
    ensures r <= s
    ensures Lacks(r, ':')
    ensures |r| < |s| ==> s[|r|] == ':'
  {
    if |s| == 0 || s[0] == ':' then [] else [s[0]] + BeforeColon(s[1..])
  }

  /** A string in which `pat` does not occur is left unchanged by replacing `pat`. */
  lemma {:induction false} ReplaceAbsent(s: string, pat: string, rep: string)
    requires |pat| > 0 && !IsInfix(pat, s)
    ensures ReplaceAll(s, pat, rep) == s
    decreases |s|
  {
    if |s| >= |pat| {
      assert !OccursAt(pat, s, 0);
      assert s[0..0 + |pat|] == s[..|pat|];
      forall i | 0 <= i <= |s[1..]| - |pat|
        ensures !OccursAt(pat, s[1..], i)
      {
        assert !OccursAt(pat, s, i + 1);
        assert s[1..][i..i + |pat|] == s[i + 1..i + 1 + |pat|];
      }
      ReplaceAbsent(s[1..], pat, rep);
      assert [s[0]] + s[1..] == s;
    }
  }

  /** A prefix that never contains the first character of `pat` is copied through unchanged. */
  lemma {:induction false} ReplaceSkipsPrefix(pre: string, x: string, pat: string, rep: string)
    requires |pat| > 0 && Lacks(pre, pat[0])
    ensures ReplaceAll(pre + x, pat, rep) == pre + ReplaceAll(x, pat, rep)
    decreases |pre|
  {
    if |pre| > 0 {
      var s := pre + x;
      if |s| >= |pat| {
        assert s[..|pat|][0] == pre[0] != pat[0];
        assert s[1..] == pre[1..] + x;
        ReplaceSkipsPrefix(pre[1..], x, pat, rep);
        assert pre == [pre[0]] + pre[1..];
      } else {
        assert ReplaceAll(x, pat, rep) == x;
      }
    } else {
      assert pre + x == x;
    }
  }

  /** Replacing `pat` in a string that lacks `pat`'s first character is the identity. */
  lemma ReplaceWithoutFirstChar(s: string, pat: string, rep: string)
    requires |pat| > 0 && Lacks(s, pat[0])
    ensures ReplaceAll(s, pat, rep) == s
  {
    ReplaceSkipsPrefix(s, [], pat, rep);
    assert s + [] == s;
  }

  /** Both occurrences of `pat` around a part that lacks its first character are replaced. */
  lemma ReplaceTwoOccurrences(pat: string, mid: string, post: string, rep: string)
    requires |pat| > 0 && Lacks(mid, pat[0])
    ensures ReplaceAll(pat + (mid + (pat + post)), pat, rep) == rep + (mid + (rep + ReplaceAll(post, pat, rep)))
  {
    ReplaceWhole(pat, rep, mid + (pat + post));
    ReplaceSkipsPrefix(mid, pat + post, pat, rep);
    ReplaceWhole(pat, rep, post);
  }

  /** The whole string being `pat` is replaced by `rep` and nothing else. */
  lemma ReplaceWhole(pat: string, rep: string, post: string)
    requires |pat| > 0
    ensures ReplaceAll(pat + post, pat, rep) == rep + ReplaceAll(post, pat, rep)
  {
    var s := pat + post;
    assert s[..|pat|] == pat;
    assert s[|pat|..] == post;
  }
}

=== FILE: transformer.dfy ===
/** The per-record phase: every record's fields are substituted into the compiled template
    triples, and the triples whose subject and object survive are collected into a graph. */
module Transformer {
  import opened Wrappers
  import opened Text
  import opened References
  import opened Yaml
  import opened Rdf
  import opened Host

  /** Placeholder `$(name)` to the raw value of the record field `name`. */
  type ReferenceMap = map<string, Node>

  /** The namespace a file-object value's file name is appended to. */
  const DEFAULT_FILES_IRI := "http://example.org/"

  /** The value a placeholder takes in a record: present and truthy, else missing
      (`0`, `""`, `[]`, `{}`, `False` and `None` count as missing). */
  function Bound(refs: ReferenceMap, ref: string): Option<Node> {
    if ref in refs && Truthy(refs[ref]) then Some(refs[ref]) else None
  }

  /** `f"{value.get('filename')}"` for a file object. */
  function FileName(entries: seq<(string, Node)>, env: Env): string {
    match Lookup(entries, "filename")
    case None => "None"
    case Some(n) => ToText(n, env.repr)
  }

  /** The text a bound value contributes: a file object becomes the CURRENT template with the
      placeholder replaced by the file's default IRI; anything else its `str()`. */
  function ValueText(value: Node, current: string, ref: string, env: Env): string {
    if value.Dict? then ReplaceAll(current, ref, DEFAULT_FILES_IRI + FileName(value.entries, env))
    else ToText(value, env.repr)
  }

  /** The template after one placeholder's turn, or None when its value is missing. The raw
      value goes in only when the template is that single placeholder; otherwise it is quoted. */
  function SubstituteOne(current: string, ref: string, count: nat, refs: ReferenceMap, env: Env): (r: Option<string>)
    ensures r.None? <==> Bound(refs, ref).None?
    ensures Bound(refs, ref).Some? && |ref| > 0 && count == 1 && current == ref ==>
              var value := Bound(refs, ref).value;
              r == Some(if value.Dict? then DEFAULT_FILES_IRI + FileName(value.entries, env) else ToText(value, env.repr))
    ensures Bound(refs, ref).Some? && |ref| > 0 && !(count == 1 && current == ref) && !Bound(refs, ref).value.Dict? ==>
              r == Some(ReplaceAll(current, ref, env.quote(ToText(Bound(refs, ref).value, env.repr))))
    ensures Bound(refs, ref).Some? && |ref| > 0 && !(count == 1 && current == ref) && Bound(refs, ref).value.Dict? ==>
              var spliced := ReplaceAll(current, ref, DEFAULT_FILES_IRI + FileName(Bound(refs, ref).value.entries, env));
              r == Some(ReplaceAll(current, ref, env.quote(spliced)))
    ensures Bound(refs, ref).Some? && |ref| > 0 && !IsInfix(ref, current) ==> r == Some(current)
  {
    match Bound(refs, ref)
    case None => None
    case Some(value) =>
      var v := ValueText(value, current, ref, env);
      var whole := if value.Dict? then DEFAULT_FILES_IRI + FileName(value.entries, env) else ToText(value, env.repr);
      ReplaceCases(current, ref, v);
      ReplaceCases(current, ref, env.quote(v));
      ReplaceCases(ref, ref, whole);
      if count == 1 && current == ref then Some(ReplaceAll(current, ref, v))
      else Some(ReplaceAll(current, ref, env.quote(v)))
  }

  /** Replacing a placeholder that does not occur changes nothing; replacing the whole text
      gives the replacement. */
  lemma ReplaceCases(current: string, ref: string, x: string)
    ensures |ref| > 0 && !IsInfix(ref, current) ==> ReplaceAll(current, ref, x) == current
    ensures |ref| > 0 ==> ReplaceAll(ref, ref, x) == x
  {
    if |ref| > 0 {
      if !IsInfix(ref, current) {
        ReplaceAbsent(current, ref, x);
      }
      ReplaceWhole(ref, x, []);
      assert ref + [] == ref;
      assert ReplaceAll([], ref, x) == [];
    }
  }

  datatype Substitution = Substitution(text: string, replaced: bool)

  /** The placeholders in `pending` take their turns in order; `replaced` records whether any
      of them had a value. */
  function Substitute(current: string, pending: seq<string>, count: nat, refs: ReferenceMap, env: Env): (r: Substitution)
    decreases |pending|
    ensures r.replaced <==> exists i | 0 <= i < |pending| :: Bound(refs, pending[i]).Some?
    ensures (forall i | 0 <= i < |pending| :: Bound(refs, pending[i]).None?) ==> r.text == current
  {
    if |pending| == 0 then Substitution(current, false)
    else
      var step := SubstituteOne(current, pending[0], count, refs, env);
      var rest := Substitute(step.GetOr(current), pending[1..], count, refs, env);
      assert forall i | 1 <= i < |pending| :: pending[i] == pending[1..][i - 1];
      Substitution(rest.text, rest.replaced || step.Some?)
  }

  /** `replace_references`: a term without placeholders is returned as it is; a term none of
      whose placeholders has a value is dropped; otherwise the substituted IRI is kept only if
      it passes both validity checks, and the substituted literal text is percent-decoded and
      keeps its language and datatype. */
  function ReplaceReferences(term: Term, refs: ReferenceMap, env: Env): (r: Option<Term>)
    ensures !ContainsPlaceholder(Lexical(term)) ==> r == Some(term)
    ensures ContainsPlaceholder(Lexical(term))
            && (forall i, j | 0 <= i <= j <= |Lexical(term)| && IsPlaceholder(Lexical(term)[i..j]) ::
                  Bound(refs, Lexical(term)[i..j]).None?)
            ==> r == None
    ensures r.Some? ==> r.value.IRI? == term.IRI?
    ensures r.Some? && r.value.IRI? ==>
              r.value == term || (env.matchesUrl(r.value.iri) && env.rdflibValid(r.value.iri))
    ensures r.Some? && term.Literal? ==> r.value.lang == term.lang && r.value.dtype == term.dtype
  {
    var text := Lexical(term);
    var found := FindReferences(text);
    ConstantIffNoPlaceholder(text);
    if |found| == 0 then Some(term)
    else
      var sub := Substitute(text, found, |found|, refs, env);
      UnboundTextReplacesNothing(text, refs, env);
      if !sub.replaced then None
      else if term.IRI? then
        if env.matchesUrl(sub.text) && env.rdflibValid(sub.text) then Some(IRI(sub.text)) else None
      else Some(Literal(env.unquote(sub.text), term.lang, term.dtype))
  }

  /** When no placeholder block of the text has a value, substitution replaces nothing. */
  lemma UnboundTextReplacesNothing(text: string, refs: ReferenceMap, env: Env)
    ensures (forall i, j | 0 <= i <= j <= |text| && IsPlaceholder(text[i..j]) :: Bound(refs, text[i..j]).None?)
            ==> !Substitute(text, FindReferences(text), |FindReferences(text)|, refs, env).replaced
  {
    var found := FindReferences(text);
    if forall i, j | 0 <= i <= j <= |text| && IsPlaceholder(text[i..j]) :: Bound(refs, text[i..j]).None? {
      forall k | 0 <= k < |found| ensures Bound(refs, found[k]).None? {
        var a :| 0 <= a <= |text| - |found[k]| && OccursAt(found[k], text, a);
        assert IsPlaceholder(text[a..a + |found[k]|]);
      }
    }
  }

  /** Substitution only looks at which placeholders have values, and at those values. */
  lemma {:induction false} SubstituteOnlySeesBound(current: string, pending: seq<string>, count: nat,
                                                   refs1: ReferenceMap, refs2: ReferenceMap, env: Env)
    requires forall ref :: Bound(refs1, ref) == Bound(refs2, ref)
    ensures Substitute(current, pending, count, refs1, env) == Substitute(current, pending, count, refs2, env)
    decreases |pending|
  {
    if |pending| > 0 {
      var step := SubstituteOne(current, pending[0], count, refs1, env);
      assert step == SubstituteOne(current, pending[0], count, refs2, env);
      SubstituteOnlySeesBound(step.GetOr(current), pending[1..], count, refs1, refs2, env);
    }
  }

  /** A falsy field value (`0`, `""`, `[]`, ...) resolves exactly as if the field were absent. */
  lemma FalsyValueIsMissing(term: Term, refs: ReferenceMap, ref: string, value: Node, env: Env)
    requires !Truthy(value)
    ensures ReplaceReferences(term, refs[ref := value], env) == ReplaceReferences(term, refs - {ref}, env)
  {
    var refs1 := refs[ref := value];
    var refs2 := refs - {ref};
    assert forall x :: Bound(refs1, x) == Bound(refs2, x);
    var text := Lexical(term);
    SubstituteOnlySeesBound(text, FindReferences(text), |FindReferences(text)|, refs1, refs2, env);
  }

  /** A template that is exactly one placeholder receives the field's text unquoted, so a field
      already holding an IRI yields that IRI (when valid); a literal gets the decoded text. */
  lemma SinglePlaceholderTakesRawValue(ref: string, refs: ReferenceMap, value: Node, env: Env,
                                       lang: Option<string>, dtype: Option<string>)
    requires IsPlaceholder(ref) && Bound(refs, ref) == Some(value)
    ensures var v := if value.Dict? then DEFAULT_FILES_IRI + FileName(value.entries, env) else ToText(value, env.repr);
            && ReplaceReferences(IRI(ref), refs, env)
               == (if env.matchesUrl(v) && env.rdflibValid(v) then Some(IRI(v)) else None)
            && ReplaceReferences(Literal(ref, lang, dtype), refs, env) == Some(Literal(env.unquote(v), lang, dtype))
  {
    WholePlaceholderSubstitution(ref, refs, value, env);
  }

  /** The substitution step for a template that is exactly one bound placeholder. */
  lemma WholePlaceholderSubstitution(ref: string, refs: ReferenceMap, value: Node, env: Env)
    requires IsPlaceholder(ref) && Bound(refs, ref) == Some(value)
    ensures FindReferences(ref) == [ref]
    ensures var v := if value.Dict? then DEFAULT_FILES_IRI + FileName(value.entries, env) else ToText(value, env.repr);
            Substitute(ref, [ref], 1, refs, env) == Substitution(v, true)
  {
    FindOnePlaceholder([], ref, []);
    assert [] + ref + [] == ref;
  }

  /** Replacing a placeholder surrounded by text without `$` touches only the placeholder. */
  lemma ReplaceInContext(pre: string, ref: string, post: string, v: string)
    requires IsPlaceholder(ref) && Lacks(pre, '$') && Lacks(post, '$')
    ensures ReplaceAll(pre + ref + post, ref, v) == pre + v + post
  {
    assert pre + ref + post == pre + (ref + post);
    ReplaceSkipsPrefix(pre, ref + post, ref, v);
    ReplaceWhole(ref, v, post);
    ReplaceWithoutFirstChar(post, ref, v);
  }

  /** One placeholder with a value inside a larger template: the value's text is quoted. */
  lemma OnePlaceholderInContext(pre: string, ref: string, post: string, refs: ReferenceMap, value: Node, env: Env)
    requires Lacks(pre, '$') && Lacks(post, '$') && |pre| + |post| > 0
    requires IsPlaceholder(ref) && Bound(refs, ref) == Some(value)
    ensures var text := pre + env.quote(ValueText(value, pre + ref + post, ref, env)) + post;
            ReplaceReferences(IRI(pre + ref + post), refs, env)
            == (if env.matchesUrl(text) && env.rdflibValid(text) then Some(IRI(text)) else None)
  {
    var template := pre + ref + post;
    var q := env.quote(ValueText(value, template, ref, env));
    FindOnePlaceholder(pre, ref, post);
    assert |template| > |ref|;
    ReplaceInContext(pre, ref, post, q);
    assert SubstituteOne(template, ref, 1, refs, env) == Some(pre + q + post);
    assert Substitute(template, [ref], 1, refs, env) == Substitution(pre + q + post, true);
  }

  /** A placeholder embedded in other text receives the field's text percent-encoded. */
  lemma EmbeddedPlaceholderIsQuoted(pre: string, ref: string, post: string, refs: ReferenceMap, value: Node, env: Env)
    requires Lacks(pre, '$') && Lacks(post, '$') && |pre| + |post| > 0
    requires IsPlaceholder(ref) && Bound(refs, ref) == Some(value) && !value.Dict?
    ensures var text := pre + env.quote(ToText(value, env.repr)) + post;
            ReplaceReferences(IRI(pre + ref + post), refs, env)
            == (if env.matchesUrl(text) && env.rdflibValid(text) then Some(IRI(text)) else None)
  {
    OnePlaceholderInContext(pre, ref, post, refs, value, env);
  }

  /** A file-object value inside a larger template: the whole template, with the file IRI
      spliced in, is percent-encoded and put in place of the placeholder. */
  lemma FileValueSplicesWholeTemplate(pre: string, ref: string, post: string, refs: ReferenceMap,
                                      entries: seq<(string, Node)>, env: Env)
    requires Lacks(pre, '$') && Lacks(post, '$') && |pre| + |post| > 0
    requires IsPlaceholder(ref) && Bound(refs, ref) == Some(Dict(entries))
    ensures var spliced := pre + DEFAULT_FILES_IRI + FileName(entries, env) + post;
            var text := pre + env.quote(spliced) + post;
            ReplaceReferences(IRI(pre + ref + post), refs, env)
            == (if env.matchesUrl(text) && env.rdflibValid(text) then Some(IRI(text)) else None)
  {
    var iri := DEFAULT_FILES_IRI + FileName(entries, env);
    ReplaceInContext(pre, ref, post, iri);
    assert pre + iri + post == pre + DEFAULT_FILES_IRI + FileName(entries, env) + post;
    assert ValueText(Dict(entries), pre + ref + post, ref, env) == pre + iri + post;
    OnePlaceholderInContext(pre, ref, post, refs, Dict(entries), env);
  }

  /** Two placeholders cannot start at the same place unless they are equal. */
  lemma PlaceholderAtStartIsUnique(r1: string, r2: string, post: string)
    requires IsPlaceholder(r1) && IsPlaceholder(r2)
    ensures |r2 + post| >= |r1| && (r2 + post)[..|r1|] == r1 ==> r1 == r2
  {
    var s := r2 + post;
    if |s| >= |r1| && s[..|r1|] == r1 {
      assert forall k | 2 <= k < |r1| - 1 :: s[k] != ')';
      assert forall k | 2 <= k < |r2| - 1 :: s[k] != ')';
      assert s[|r1| - 1] == ')' && s[|r2| - 1] == ')';
      assert |r1| == |r2|;
      assert r1 == s[..|r2|] == r2;
    }
  }

  /** Two placeholders separated by text without `$` are found in order. */
  lemma FindTwoPlaceholders(pre: string, r1: string, mid: string, r2: string, post: string)
    requires Lacks(pre, '$') && Lacks(mid, '$') && Lacks(post, '$')
    requires IsPlaceholder(r1) && IsPlaceholder(r2)
    ensures FindReferences(pre + r1 + mid + r2 + post) == [r1, r2]
  {
    var second := mid + r2 + post;
    FindOnePlaceholder(mid, r2, post);
    var first := r1 + second;
    FindLeadingPlaceholder(r1, second);
    FindSkipsPrefix(pre, first);
    Regroup(pre, r1, mid, r2, post);
  }

  /** A placeholder is not replaced inside a different placeholder that has no further `$`. */
  lemma ReplaceSkipsOtherPlaceholder(r1: string, r2: string, post: string, v: string)
    requires IsPlaceholder(r1) && IsPlaceholder(r2) && r1 != r2
    requires Lacks(r2[1..], '$') && Lacks(post, '$')
    ensures ReplaceAll(r2 + post, r1, v) == r2 + post
  {
    PlaceholderAtStartIsUnique(r1, r2, post);
    var rest := r2[1..] + post;
    assert r2 + post == [r2[0]] + rest;
    assert Lacks(rest, '$');
    ReplaceWithoutFirstChar(rest, r1, v);
  }

  /** Replacing the first of two different placeholders leaves the second in place, provided the
      second has no `$` after its first character. */
  lemma ReplaceFirstOfTwo(pre: string, r1: string, mid: string, r2: string, post: string, v: string)
    requires Lacks(pre, '$') && Lacks(mid, '$') && Lacks(post, '$')
    requires IsPlaceholder(r1) && IsPlaceholder(r2) && r1 != r2 && Lacks(r2[1..], '$')
    ensures ReplaceAll(pre + r1 + mid + r2 + post, r1, v) == pre + v + mid + r2 + post
  {
    var tail := mid + r2 + post;
    ReplaceKeepsTail(r1, mid, r2, post, v);
    var whole := r1 + tail;
    ReplaceWhole(r1, v, tail);
    ReplaceSkipsPrefix(pre, whole, r1, v);
    assert pre + r1 + mid + r2 + post == pre + whole;
    assert pre + (v + tail) == pre + v + mid + r2 + post;
  }

  /** The text after the first placeholder, holding only the second one, is left unchanged. */
  lemma ReplaceKeepsTail(r1: string, mid: string, r2: string, post: string, v: string)
    requires Lacks(mid, '$') && Lacks(post, '$')
    requires IsPlaceholder(r1) && IsPlaceholder(r2) && r1 != r2 && Lacks(r2[1..], '$')
    ensures ReplaceAll(mid + r2 + post, r1, v) == mid + r2 + post
  {
    ReplaceSkipsOtherPlaceholder(r1, r2, post, v);
    ReplaceSkipsPrefix(mid, r2 + post, r1, v);
    assert mid + r2 + post == mid + (r2 + post);
  }

  /** With two placeholders of which only the first has a value, the second stays in the
      output as literal `$(...)` text instead of the term being dropped. */
  lemma PartialSubstitutionKeepsLeftover(pre: string, r1: string, mid: string, r2: string, post: string,
                                         refs: ReferenceMap, value: Node, env: Env)
    requires Lacks(pre, '$') && Lacks(mid, '$') && Lacks(post, '$')
    requires IsPlaceholder(r1) && IsPlaceholder(r2) && r1 != r2 && Lacks(r2[1..], '$')
    requires Bound(refs, r1) == Some(value) && !value.Dict? && Bound(refs, r2).None?
    ensures var text := pre + env.quote(ToText(value, env.repr)) + mid + r2 + post;
            && IsInfix(r2, text)
            && ReplaceReferences(IRI(pre + r1 + mid + r2 + post), refs, env)
               == (if env.matchesUrl(text) && env.rdflibValid(text) then Some(IRI(text)) else None)
  {
    var template := pre + r1 + mid + r2 + post;
    var q := env.quote(ToText(value, env.repr));
    var text := pre + q + mid + r2 + post;
    FindTwoPlaceholders(pre, r1, mid, r2, post);
    ReplaceFirstOfTwo(pre, r1, mid, r2, post, q);
    assert |template| > |r1|;
    assert SubstituteOne(template, r1, 2, refs, env) == Some(text);
    assert Substitute(text, [r2], 2, refs, env) == Substitution(text, false);
    assert [r1, r2][1..] == [r2];
    assert Substitute(template, [r1, r2], 2, refs, env) == Substitution(text, true);
    assert text == (pre + q + mid) + r2 + post;
    assert OccursAt(r2, text, |pre + q + mid|);
  }

  // ---------------------------------------------------------------- records

  /** The placeholders a record's field names define. */
  function FieldRefs(fields: seq<(string, Node)>): set<string> {
    if |fields| == 0 then {} else FieldRefs(fields[..|fields| - 1]) + {Ref(fields[|fields| - 1].0)}
  }

  /** A placeholder is defined exactly when some field has its name. */
  lemma {:induction false} FieldRefsAreFieldNames(fields: seq<(string, Node)>, k: string)
    ensures k in FieldRefs(fields) <==> exists i | 0 <= i < |fields| :: k == Ref(fields[i].0)
    decreases |fields|
  {
    if |fields| > 0 {
      var init := fields[..|fields| - 1];
      FieldRefsAreFieldNames(init, k);
      assert forall i | 0 <= i < |init| :: init[i] == fields[i];
      if exists i | 0 <= i < |fields| :: k == Ref(fields[i].0) {
        var i :| 0 <= i < |fields| && k == Ref(fields[i].0);
        if i < |init| {
          assert k == Ref(init[i].0);
        }
      }
    }
  }

  /** No later field has the same name as field `i`. */
  predicate LastOfName(fields: seq<(string, Node)>, i: nat)
    requires i < |fields|
  {
    forall j | i < j < |fields| :: fields[j].0 != fields[i].0
  }

  /** The reference map of a record's fields: `$(name)` for every field name, holding the
      value of the last field of that name. */
  function ReferenceMapOf(fields: seq<(string, Node)>): (r: ReferenceMap)
    ensures r.Keys == FieldRefs(fields)
    ensures forall i | 0 <= i < |fields| && LastOfName(fields, i) :: Ref(fields[i].0) in r && r[Ref(fields[i].0)] == fields[i].1
  {
    if |fields| == 0 then map[]
    else
      var init := fields[..|fields| - 1];
      var last := fields[|fields| - 1];
      LastFieldWins(init, last, ReferenceMapOf(init));
      assert fields == init + [last];
      ReferenceMapOf(init)[Ref(last.0) := last.1]
  }

  /** Appending a field overrides its own name's entry and keeps every other last value. */
  lemma LastFieldWins(init: seq<(string, Node)>, last: (string, Node), m: ReferenceMap)
    requires forall i | 0 <= i < |init| && LastOfName(init, i) :: Ref(init[i].0) in m && m[Ref(init[i].0)] == init[i].1
    ensures var fields := init + [last];
            forall i | 0 <= i < |fields| && LastOfName(fields, i) ::
              Ref(fields[i].0) in m[Ref(last.0) := last.1] && m[Ref(last.0) := last.1][Ref(fields[i].0)] == fields[i].1
  {
    var fields := init + [last];
    assert forall j | 0 <= j < |init| :: fields[j] == init[j];
    forall i | 0 <= i < |fields| && LastOfName(fields, i)
      ensures Ref(fields[i].0) in m[Ref(last.0) := last.1] && m[Ref(last.0) := last.1][Ref(fields[i].0)] == fields[i].1
    {
      if i < |init| {
        assert fields[|init|].0 != fields[i].0;
        RefInjective(fields[i].0, last.0);
        assert LastOfName(init, i);
      }
    }
  }

  /** The reference map of one record: it must be a dict whose `fields` is a dict. */
  function RecordReferences(record: Node): (r: Result<ReferenceMap, PyError>)
    ensures r.Success? <==>
              record.Dict? && Lookup(record.entries, "fields").Some? && Lookup(record.entries, "fields").value.Dict?
    ensures r.Success? ==> r.value == ReferenceMapOf(Lookup(record.entries, "fields").value.entries)
  {
    var fields :- Index(record, "fields");
    var entries :- Items(fields);
    Success(ReferenceMapOf(entries))
  }

  /** One compiled triple against one record: the subject must resolve to a non-empty IRI and
      the object to a truthy term; the predicate is copied as it is. */
  function ResolveTriple(t: Triple, refs: ReferenceMap, env: Env): (r: Option<Triple>)
    ensures r.Some? <==>
              && ReplaceReferences(t.s, refs, env).Some?
              && ReplaceReferences(t.s, refs, env).value.IRI?
              && |ReplaceReferences(t.s, refs, env).value.iri| > 0
              && ReplaceReferences(t.o, refs, env).Some?
              && TermTruthy(ReplaceReferences(t.o, refs, env).value, env)
    ensures r.Some? ==> r.value.p == t.p
    ensures r.Some? ==> r.value.s == ReplaceReferences(t.s, refs, env).value
                        && r.value.o == ReplaceReferences(t.o, refs, env).value
  {
    match ReplaceReferences(t.s, refs, env)
    case None => None
    case Some(s) =>
      if !(TermTruthy(s, env) && s.IRI?) then None
      else
        match ReplaceReferences(t.o, refs, env)
        case None => None
        case Some(o) => if TermTruthy(o, env) then Some(Triple(s, t.p, o)) else None
  }

  /** `t` is emitted by one of the compiled triples against the references `refs`. */
  ghost predicate Emits(mapping: set<Triple>, refs: ReferenceMap, env: Env, t: Triple) {
    exists m | m in mapping :: ResolveTriple(m, refs, env) == Some(t)
  }

  /** `t` is emitted for `record` by one of the compiled triples. */
  ghost predicate EmitsFor(record: Node, mapping: set<Triple>, env: Env, t: Triple) {
    RecordReferences(record).Success? && Emits(mapping, RecordReferences(record).value, env, t)
  }

  /** `t` is emitted for some record. */
  ghost predicate Produced(records: seq<Node>, mapping: set<Triple>, env: Env, t: Triple) {
    exists i | 0 <= i < |records| :: EmitsFor(records[i], mapping, env, t)
  }

  /** The inner loop of `yarrrml_mapper`: all compiled triples against one record's references. */
  method RecordGraph(mapping: set<Triple>, refs: ReferenceMap, env: Env) returns (g: set<Triple>)
    ensures forall t :: t in g <==> Emits(mapping, refs, env, t)
  {
    g := {};
    var rest := mapping;
    while rest != {}
      invariant rest <= mapping
      invariant forall t :: t in g <==> exists m | m in mapping - rest :: ResolveTriple(m, refs, env) == Some(t)
      decreases rest
    {
      var m :| m in rest;
      var resolved := ResolveTriple(m, refs, env);
      if resolved.Some? {
        g := g + {resolved.value};
      }
      rest := rest - {m};
    }
  }

  /** The reference maps of all records, or the error of the first record that has none. */
  method AllRecordReferences(records: seq<Node>) returns (r: Result<seq<ReferenceMap>, PyError>)
    ensures r.Failure? <==> exists i | 0 <= i < |records| :: RecordReferences(records[i]).Failure?
    ensures r.Failure? ==>
              exists i | 0 <= i < |records| ::
                && RecordReferences(records[i]) == Failure(r.error)
                && forall j | 0 <= j < i :: RecordReferences(records[j]).Success?
    ensures r.Success? ==>
              |r.value| == |records| && forall j | 0 <= j < |records| :: RecordReferences(records[j]) == Success(r.value[j])
  {
    var all: seq<ReferenceMap> := [];
    var i := 0;
    while i < |records|
      invariant 0 <= i <= |records| && |all| == i
      invariant forall j | 0 <= j < i :: RecordReferences(records[j]) == Success(all[j])
    {
      var refs := RecordReferences(records[i]);
      if refs.Failure? {
        return Failure(refs.error);
      }
      all := all + [refs.value];
      i := i + 1;
    }
    return Success(all);
  }

  /** `part` holds exactly the triples the compiled triples emit against `refs`. */
  ghost predicate EmittedPart(part: set<Triple>, mapping: set<Triple>, refs: ReferenceMap, env: Env) {
    forall t :: t in part <==> Emits(mapping, refs, env, t)
  }

  /** `graph` holds exactly the triples emitted against one of the first `n` reference maps. */
  ghost predicate EmittedBefore(graph: set<Triple>, all: seq<ReferenceMap>, n: nat, mapping: set<Triple>, env: Env)
    requires n <= |all|
  {
    forall t :: t in graph <==> exists j | 0 <= j < n :: Emits(mapping, all[j], env, t)
  }

  /** Adding the triples of the next record extends the accumulated graph by exactly that
      record's contribution. */
  lemma EmittedStep(graph: set<Triple>, g: set<Triple>, all: seq<ReferenceMap>, n: nat, mapping: set<Triple>, env: Env)
    requires n < |all|
    requires EmittedBefore(graph, all, n, mapping, env)
    requires EmittedPart(g, mapping, all[n], env)
    ensures EmittedBefore(graph + g, all, n + 1, mapping, env)
  {
    forall t ensures t in graph + g <==> exists j | 0 <= j < n + 1 :: Emits(mapping, all[j], env, t) {
      if Emits(mapping, all[n], env, t) {
        assert t in g;
      }
    }
  }

  /** The triples all compiled triples emit against any of the reference maps. */
  method GraphOf(all: seq<ReferenceMap>, mapping: set<Triple>, env: Env) returns (graph: set<Triple>)
    ensures forall t :: t in graph <==> exists j | 0 <= j < |all| :: Emits(mapping, all[j], env, t)
  {
    graph := {};
    var i := 0;
    while i < |all|
      invariant 0 <= i <= |all|
      invariant EmittedBefore(graph, all, i, mapping, env)
    {
      var g := RecordGraph(mapping, all[i], env);
      EmittedStep(graph, g, all, i, mapping, env);
      graph := graph + g;
      i := i + 1;
    }
  }

  /** `yarrrml_mapper`: every record against every compiled triple; a record that is not a dict
      with a dict of `fields` aborts the run with the error Python raises (the triples collected
      before it are discarded with the exception, so the references are gathered first). */
  method YarrrmlMapper(records: seq<Node>, mapping: set<Triple>, env: Env) returns (r: Result<set<Triple>, PyError>)
    ensures r.Failure? <==> exists i | 0 <= i < |records| :: RecordReferences(records[i]).Failure?
    ensures r.Failure? ==>
              exists i | 0 <= i < |records| ::
                && RecordReferences(records[i]) == Failure(r.error)
                && forall j | 0 <= j < i :: RecordReferences(records[j]).Success?
    ensures r.Success? ==> forall t :: t in r.value <==> Produced(records, mapping, env, t)
  {
    var all := AllRecordReferences(records);
    if all.Failure? {
      return Failure(all.error);
    }
    var graph := GraphOf(all.value, mapping, env);
    r := Success(graph);
    assert forall t, j | 0 <= j < |records| :: EmitsFor(records[j], mapping, env, t) == Emits(mapping, all.value[j], env, t);
  }

  /** Every emitted triple has a non-empty IRI subject that is either a constant of the rule
      set or passed both validity checks, and its predicate is one of the rule set's, unchanged. */
  lemma EmittedTriplesAreWellFormed(records: seq<Node>, mapping: set<Triple>, env: Env, t: Triple)
    requires Produced(records, mapping, env, t)
    ensures t.s.IRI? && |t.s.iri| > 0
    ensures exists m | m in mapping :: m.p == t.p && (t.s == m.s || (env.matchesUrl(t.s.iri) && env.rdflibValid(t.s.iri)))
  {
    var i :| 0 <= i < |records| && EmitsFor(records[i], mapping, env, t);
    var m :| m in mapping && ResolveTriple(m, RecordReferences(records[i]).value, env) == Some(t);
    assert m.p == t.p;
  }
}

=== FILE: wrappers.dfy ===
/** Optional values and success-or-error results, usable with `:-`. */
module Wrappers {

  /** A value that may be missing: Python's `None` versus a present value. */
  datatype Option<+T> = None | Some(value: T) {

    predicate IsFailure() {
      None?
    }

    function PropagateFailure<U>(): Option<U>
      requires None?
    {
      None
    }

    function Extract(): T
      requires Some?
    {
      value
    }

    function GetOr(default: T): T {
      if Some? then value else default
    }
  }

  /** Either a computed value or the error that aborted the computation. */
  datatype Result<+R, +E> = Success(value: R) | Failure(error: E) {

    predicate IsFailure() {
      Failure?
    }

    function PropagateFailure<U>(): Result<U, E>
      requires Failure?
    {
      Failure(error)
    }

    function Extract(): R
      requires Success?
    {
      value
    }
  }
}

=== FILE: yaml.dfy ===
/** The parsed mapping document and the record fields as a tagged tree, together with the
    Python container operations the mapper applies to it (`in`, `[]`, `.items()`, iteration,
    `len`, truthiness, `str()`), each failing the way Python raises. */
module Yaml {
  import opened Wrappers
  import opened Text

  /** A YAML/JSON value. Mappings keep their entries in document order; keys are strings. */
  datatype Node =
    | Null
    | Bool(b: bool)
    | Num(n: int)
    | Str(s: string)
    | List(items: seq<Node>)
    | Dict(entries: seq<(string, Node)>)

  /** The Python exceptions that abort compiling a mapping or transforming records. */
  datatype PyError = TypeError | AttributeError | IndexError | KeyError

  /** Python truthiness: `None`, `False`, `0`, `""`, `[]` and `{}` are false. */
  predicate Truthy(n: Node) {
    match n
    case Null => false
    case Bool(b) => b
    case Num(k) => k != 0
    case Str(s) => |s| > 0
    case List(xs) => |xs| > 0
    case Dict(es) => |es| > 0
  }

  /** The value stored under `key`, from the first entry that has it. */
  function Lookup(entries: seq<(string, Node)>, key: string): (r: Option<Node>)
    ensures r.None? <==> forall i | 0 <= i < |entries| :: entries[i].0 != key
    ensures r.Some? ==> exists i | 0 <= i < |entries| :: entries[i] == (key, r.value)
  {
    if |entries| == 0 then None
    else if entries[0].0 == key then Some(entries[0].1)
    else
      var r := Lookup(entries[1..], key);
      assert r.Some? ==> exists i | 0 <= i < |entries| :: entries[i] == (key, r.value) by {
        if r.Some? {
          var i :| 0 <= i < |entries[1..]| && entries[1..][i] == (key, r.value);
          assert entries[i + 1] == (key, r.value);
        }
      }
      r
  }

  /** `key in container`: a key test on a dict, membership on a list, a substring test on a
      string; any other value is not a container. */
  function In(key: string, container: Node): (r: Result<bool, PyError>)
    ensures container.Dict? ==> r == Success(Lookup(container.entries, key).Some?)
    ensures container.Null? || container.Bool? || container.Num? ==> r == Failure(TypeError)
  {
    match container
    case Dict(es) => Success(Lookup(es, key).Some?)
    case List(xs) => Success(Str(key) in xs)
    case Str(s) => Success(IsInfix(key, s))
    case _ => Failure(TypeError)
  }

  /** `container[key]` with a string key: only a dict holding the key answers. */
  function Index(container: Node, key: string): (r: Result<Node, PyError>)
    ensures r.Success? <==> container.Dict? && Lookup(container.entries, key).Some?
    ensures r.Success? ==> Some(r.value) == Lookup(container.entries, key)
  {
    match container
    case Dict(es) =>
      (match Lookup(es, key)
       case Some(v) => Success(v)
       case None => Failure(KeyError))
    case _ => Failure(TypeError)
  }

  /** `get_keys(d, keys)`: the value under the first of `keys` that `d` contains, else `{}`. */
  function GetKeys(d: Node, keys: seq<string>): (r: Result<Node, PyError>)
    ensures d.Dict? ==> r.Success?
    ensures d.Dict? && (forall i | 0 <= i < |keys| :: Lookup(d.entries, keys[i]).None?) ==>
              r == Success(Dict([]))
    ensures d.Dict? ==>
              forall i | 0 <= i < |keys| && Lookup(d.entries, keys[i]).Some?
                         && (forall j | 0 <= j < i :: Lookup(d.entries, keys[j]).None?) ::
                r == Success(Lookup(d.entries, keys[i]).value)
  {
    if |keys| == 0 then Success(Dict([]))
    else
      var present :- In(keys[0], d);
      if present then Index(d, keys[0]) else GetKeys(d, keys[1..])
  }

  /** `d.items()`: only a dict has items. */
  function Items(d: Node): (r: Result<seq<(string, Node)>, PyError>)
    ensures r.Success? <==> d.Dict?
    ensures r.Success? ==> r.value == d.entries
  {
    if d.Dict? then Success(d.entries) else Failure(AttributeError)
  }

  /** The one-character strings of `s`, as Python yields them when iterating or indexing. */
  function Chars(s: string): (r: seq<Node>)
    ensures |r| == |s|
    ensures forall i | 0 <= i < |s| :: r[i] == Str([s[i]])
  {
    seq(|s|, i requires 0 <= i < |s| => Str([s[i]]))
  }

  /** `for x in n`: list items, dict keys, or string characters. */
  function Iterate(n: Node): (r: Result<seq<Node>, PyError>)
    ensures n.List? ==> r == Success(n.items)
    ensures n.Dict? ==> r.Success? && |r.value| == |n.entries|
                        && forall i | 0 <= i < |n.entries| :: r.value[i] == Str(n.entries[i].0)
    ensures n.Str? ==> r == Success(Chars(n.s))
    ensures r.Failure? <==> n.Null? || n.Bool? || n.Num?
  {
    match n
    case List(xs) => Success(xs)
    case Dict(es) => Success(seq(|es|, i requires 0 <= i < |es| => Str(es[i].0)))
    case Str(s) => Success(Chars(s))
    case _ => Failure(TypeError)
  }

  /** The elements an object spec offers to `len(obj)`, `obj[0]` and `obj[i]`: a list's items,
      a string's characters, nothing for `{}`; a non-empty dict fails at `obj[0]` and a scalar
      has no `len`. */
  function ObjectElements(obj: Node): (r: Result<seq<Node>, PyError>)
    ensures obj.List? ==> r == Success(obj.items)
    ensures obj.Str? ==> r == Success(Chars(obj.s))
    ensures r.Success? && |r.value| == 0 <==> !Truthy(obj) && (obj.List? || obj.Str? || obj.Dict?)
    ensures obj.Dict? && |obj.entries| > 0 ==> r == Failure(KeyError)
    ensures !(obj.List? || obj.Str? || obj.Dict?) ==> r == Failure(TypeError)
  {
    match obj
    case List(xs) => Success(xs)
    case Str(s) => Success(Chars(s))
    case Dict(es) => if |es| == 0 then Success([]) else Failure(KeyError)
    case _ => Failure(TypeError)
  }

  /** Every character is a decimal digit. */
  predicate AllDigits(s: string) {
    forall i | 0 <= i < |s| :: '0' <= s[i] <= '9'
  }

  /** The decimal digits of `n`, most significant first, without leading zeros. */
  function Digits(n: nat): (r: string)
    decreases n
    ensures |r| > 0
    ensures AllDigits(r)
    ensures r[0] == '0' <==> n == 0
    ensures n == 0 ==> r == "0"
  {
    if n < 10 then ["0123456789"[n]] else Digits(n / 10) + ["0123456789"[n % 10]]
  }

  /** The number a string of decimal digits denotes. */
  function DigitsValue(s: string): nat
    requires AllDigits(s)
  {
    if |s| == 0 then 0 else DigitsValue(s[..|s| - 1]) * 10 + (s[|s| - 1] as int - '0' as int)
  }

  /** `str(n)` for an integer: optional minus sign, then the digits of its magnitude. */
  function Decimal(n: int): string {
    if n < 0 then "-" + Digits(-n) else Digits(n)
  }

  /** Reading back the digits `str()` writes gives the original number. */
  lemma {:induction false} DigitsRoundTrip(n: nat)
    ensures DigitsValue(Digits(n)) == n
    decreases n
  {
    if n >= 10 {
      var d := Digits(n);
      assert d[..|d| - 1] == Digits(n / 10);
      DigitsRoundTrip(n / 10);
    }
  }

  /** Behind a minus sign the digits keep their value. */
  lemma DropSign(d: string)
    requires AllDigits(d)
    ensures ("-" + d)[0] == '-' && ("-" + d)[1..] == d && DigitsValue(("-" + d)[1..]) == DigitsValue(d)
  {
    assert ("-" + d)[1..] == d;
  }

  /** The text `str()` writes for an integer reads back as that integer, behind a minus sign
      when it is negative. */
  lemma {:induction false} DecimalRoundTrip(k: int)
    ensures k >= 0 ==> AllDigits(Decimal(k)) && DigitsValue(Decimal(k)) == k
    ensures k < 0 ==> |Decimal(k)| > 1 && Decimal(k)[0] == '-' && AllDigits(Decimal(k)[1..])
                      && DigitsValue(Decimal(k)[1..]) == -k
  {
    if k < 0 {
      DigitsRoundTrip(-k);
      DropSign(Digits(-k));
    } else {
      DigitsRoundTrip(k);
    }
  }

  /** `str()` writes no leading zeros: only zero itself starts with the digit `0`. */
  lemma DecimalNoLeadingZero(k: int)
    ensures k >= 0 ==> |Decimal(k)| == 1 || Decimal(k)[0] != '0'
    ensures k < 0 ==> |Decimal(k)| > 1 && Decimal(k)[1] != '0'
  {
    if k < 0 {
      assert Decimal(k)[1..] == Digits(-k);
    }
  }

  /** `str(n)` / `f"{n}"`; the text of lists and dicts (Python's repr) is supplied by `repr`. */
  function ToText(n: Node, repr: Node -> string): (r: string)
    ensures n.Str? ==> r == n.s
    ensures n.Num? && n.n >= 0 ==> AllDigits(r) && DigitsValue(r) == n.n && |r| > 0 && (|r| == 1 || r[0] != '0')
    ensures n.Num? && n.n < 0 ==>
              && |r| > 1 && r[0] == '-' && AllDigits(r[1..]) && DigitsValue(r[1..]) == -n.n
              && (|r| == 2 || r[1] != '0')
  {
    match n
    case Null => "None"
    case Bool(b) => if b then "True" else "False"
    case Num(k) => DecimalRoundTrip(k); DecimalNoLeadingZero(k); Decimal(k)
    case Str(s) => s
    case _ => repr(n)
  }
}
